=== FILE: README.md ===
# Campus marketplace: a Dafny model of the server handlers, jobs, migration and listing feed

This project models the stateful core of a campus buy-and-sell marketplace:

- the REST server's handlers (`server/index.js`):
  - create, query, fetch and delete listings;
  - find-or-create a two-party conversation about a listing;
  - list a user's conversations;
  - send a message and list a conversation's messages;
  - upsert a user profile;
- the two cloud functions (`firebase/functions/index.js`):
  - the daily sweep that expires overdue listings;
  - the trigger that copies a new message into its conversation's summary;
- the per-record transforms of the MongoDB-to-Firestore migration script (`sanitize` and the `||` defaults);
- the home page's listing feed (`client/src/pages/Home.jsx`): the query string it sends, how it stores the reply, and its title search.

The Firestore collections are sequences of immutable records in a `Records.Db`. Each handler is a pure function from a store to a new store and a response (`Step`). Fresh document ids come from a counter, and clock readings are parameters.

Modules, one per file:

- `Prelude`: `Option`.
- `Seqs`: `Array.prototype.filter`, a stable sort on a numeric key, and `map` with a throwing callback.
- `Records`: the documents and the store.
- `Chat` and `ChatProperties`: conversations and messages.
- `Listings`: the listing routes.
- `Users`: the user directory.
- `Jobs`: the cloud functions.
- `Json`: JavaScript values, `||`, property access and assignment.
- `Migration`: the migration transforms.
- `Home`: the client feed.

Two behaviours of the server are worth stating up front:

- **Conversation match.** Find-or-create reuses the first conversation in which both uids occur among the participants. The pair is not normalised into a key, so a request whose sender and receiver are the same uid matches any conversation involving that uid.
- **Message checks.** The server does not check that the message text is non-empty, nor that the sender is a participant, so `Chat.SendMessage` accepts any text from any sender.

## Model

| member | source | states |
|---|---|---|
| Chat.FirstConnecting | server/index.js:173-177 | the `find` scan returns the position of the first conversation, in store order, whose participants include both uids, and returns nothing only when no conversation does |
| Chat.FindOrCreate | server/index.js:158-212 | the intended handler (see Findings), whose request always carries names and photos: answers Ok exactly when some stored conversation includes both uids; Ok reuses the first such conversation, changing only its listing id (and its title, only together with a different id), and leaves everything else in the store unchanged; otherwise exactly one conversation with a fresh id is appended: participants sender then receiver, empty last message and sender, timestamp `now`, and the request's listing |
| Chat.FindOrCreateAsWritten | server/index.js:158-212 | the handler as written: with every name and photo present it is the intended find-or-create; reusing a conversation is unaffected by missing ones; with one missing it answers a server error and writes nothing exactly when no conversation connects the pair |
| Chat.ItemPageChatFails | server/index.js:193-211 | one concrete request shaped like the item page's (no names or photos) for a new pair: as written it fails, the intended handler creates the conversation |
| ChatProperties.FirstConnectingAfter | server/index.js:169-207 | after a find-or-create, the conversation it answered with is the first one the scan finds for that pair |
| ChatProperties.FindOrCreateTwice | server/index.js:169-207 | two find-or-create calls for the same pair, in either order, answer with the same conversation id; the second adds nothing, so the store grows by at most one, and the stored listing id is the second call's |
| ChatProperties.FindOrCreateKeepsPairsUnique | server/index.js:169-207 | if no two stored conversations connect the same two distinct uids, that still holds after a find-or-create |
| Chat.Involving | server/index.js:222 | keeps exactly the conversations with a participant whose uid is the user's, each as often as stored |
| Chat.ListConversations | server/index.js:215-231 | the result is a permutation of the user's conversations, ordered by non-increasing last-message timestamp |
| Chat.ListConversationsStable | server/index.js:225 | conversations with equal timestamps keep their store order |
| Chat.Summarise | server/index.js:249-253 | the summary takes the message's text and sender and the given time; id, participants and listing are unchanged |
| Chat.SendMessage | server/index.js:234-259 | appends exactly one message with a fresh id and the request's conversation, sender and text, leaving earlier messages as they were; the conversation with that id gets the new summary and no other conversation changes; a missing conversation gives a server error with no conversation changed, but the message stays stored |
| Chat.Thread | server/index.js:264-266 | keeps exactly the messages of the conversation, each as often as stored |
| Chat.ListMessages | server/index.js:262-276 | the intended oldest-first listing (see Findings): the result is a permutation of the conversation's messages, in non-decreasing timestamp order |
| Chat.ListMessagesAsWritten | server/index.js:262-276 | the handler as written: since the comparator sees no usable date, the sort leaves the conversation's messages in query order |
| Chat.ListMessagesAsWrittenUnordered | server/index.js:268-270 | one concrete two-message thread, whose first stored message is stamped later: as written it is listed first, in the intended order second |
| Seqs.SortByConstantKey | server/index.js:270 | a stable sort whose comparator calls every pair equal returns its input unchanged |
| Chat.ListMessagesStable | server/index.js:270 | messages with equal timestamps keep their store order |
| ChatProperties.SendMessageBecomesLatest | server/index.js:238-253 | a message sent no earlier than its thread's messages is listed last, and the conversation's summary names that message's text and sender |
| Listings.CreateListing | server/index.js:71-99 | appends one listing with a fresh id, the form's fields and the uploaded image URLs, college `vjcet.org`, status active, created `now` and no expiry date |
| Listings.Selection | server/index.js:105-109 | keeps exactly the active listings, of the category when one is given |
| Listings.ListListings | server/index.js:102-132 | the result is a permutation of the selected listings: ascending price for `price_low`, descending price for `price_high`, newest first for any other sort |
| Listings.FindListing | server/index.js:137-138 | finds a stored listing with the id, or reports that no listing has it |
| Listings.GetListing | server/index.js:135-143 | answers the stored listing with that id, and not-found exactly when no listing has it |
| Listings.DeleteListing | server/index.js:146-153 | afterwards no listing has the id; every other listing is kept, in order, and the answer is always the success message |
| Users.SyncUser | server/index.js:279-303 | an empty uid is rejected with a server error and nothing written; otherwise the uid's record holds the reported profile and keeps its creation time if it existed (otherwise `now`), no other user changes, and the stored record is the answer |
| Users.SyncUserIdempotent | server/index.js:283-295 | syncing the same profile again, at any time, changes nothing |
| Jobs.ExpireListings | firebase/functions/index.js:11-25 | exactly the active listings with an expiry date before `now` become expired; no other field or listing changes |
| Jobs.ExpireListingsIdempotent | firebase/functions/index.js:13-21 | a second sweep at the same instant changes nothing |
| Jobs.CreatedListingNeverExpires | firebase/functions/index.js:13-16 | a listing created by the server has no expiry date and is never expired by a sweep |
| Jobs.OtherParticipant | firebase/functions/index.js:45 | the receiver is the first participant that is not the sender, and is absent only when every participant is the sender |
| Jobs.OnMessageCreated | firebase/functions/index.js:28-60 | a missing snapshot or conversation changes nothing; otherwise only that conversation's last message, timestamp and sender change, to the message's, and the receiver is the first participant other than the sender |
| Jobs.OnMessageCreatedTwice | firebase/functions/index.js:28-60 | handling the same message event a second time writes nothing new and names the same receiver |
| Json.Set | client/src/pages/Home.jsx:41 | after assigning a key, reading it gives the new value and every other key reads as before |
| Json.SetKeys | client/src/pages/Home.jsx:41 | assignment keeps the key list in order and appends the key at the end only when it was new |
| Migration.Sanitize | server/migrate_mongo_to_firebase.js:53-63 | the same keys in the same order; each `undefined` becomes `null` and every other value is kept; no `undefined` remains |
| Migration.SanitizeIdempotent | server/migrate_mongo_to_firebase.js:53-63 | sanitizing twice equals sanitizing once |
| Migration.GetSanitize | server/migrate_mongo_to_firebase.js:56-60 | reading a key of the sanitized object gives the original value with `undefined` turned into `null`, and a missing key stays missing |
| Migration.DocumentId | server/migrate_mongo_to_firebase.js:76 | a document path is accepted exactly when it is a non-empty string |
| Migration.ReadBack | server/migrate_mongo_to_firebase.js:95-108 | reading a field of a written document gives the source value with its fallback applied: the default when the source value is falsy, `null` for a missing copied field |
| Migration.MigrateUser | server/migrate_mongo_to_firebase.js:76-83 | a user is written exactly when its uid is a usable document id, under that uid, with the six profile keys and no `undefined` |
| Migration.MigrateUserReadBack | server/migrate_mongo_to_firebase.js:77-82 | the written uid is the source uid; the photo defaults to `''` and the creation time to the migration's clock when falsy |
| Migration.MigrateListing | server/migrate_mongo_to_firebase.js:95-108 | the listing is written under its MongoDB id with the twelve listing keys and no `undefined` |
| Migration.MigrateListingReadBack | server/migrate_mongo_to_firebase.js:96-107 | title and price are copied; images, seller photo, college, status and creation time take `[]`, `''`, `vjcet.org`, `active` and the clock exactly when the source value is falsy |
| Migration.MigrateParticipant | server/migrate_mongo_to_firebase.js:127-131 | an entry throws exactly when it is `null` or `undefined`; otherwise the snapshot holds uid, display name and photo, each the entry's own value when truthy and `''`, `Unknown`, `''` otherwise |
| Migration.MigrateParticipants | server/migrate_mongo_to_firebase.js:127-131 | the participant list keeps its length and order, entry by entry, and throws exactly when some entry is `null` or `undefined` |
| Migration.MigrateConversation | server/migrate_mongo_to_firebase.js:118-137 | a conversation is written, under its MongoDB id, exactly when its participants form an array whose entries all migrate; nothing is written otherwise |
| Migration.MigrateConversationReadBack | server/migrate_mongo_to_firebase.js:126-137 | the written participants are the migrated ones, and the listing id, last message and its timestamp take their defaults exactly when falsy |
| Migration.MigrateMessage | server/migrate_mongo_to_firebase.js:149-154 | the message is written under its MongoDB id with its four keys and no `undefined` |
| Migration.MigrateMessageReadBack | server/migrate_mongo_to_firebase.js:149-154 | conversation id, sender and text are copied (`null` where missing); the timestamp takes the clock exactly when the source value is falsy |
| Home.IncludesIff | client/src/pages/Home.jsx:52 | the `includes` scan succeeds exactly when the term occurs at some position of the title |
| Home.Title | client/src/pages/Home.jsx:52 | an item has a searchable title exactly when it is an object whose `title` is a string |
| Home.Search | client/src/pages/Home.jsx:51-53 | the search throws exactly when some item lacks a string title; otherwise it keeps exactly the matching items, each as often as in the list, as an order-preserving subsequence |
| Home.SearchKeeps | client/src/pages/Home.jsx:51-53 | an item survives the search exactly when the lower-cased term occurs in its lower-cased title |
| Home.SearchEmptyTerm | client/src/pages/Home.jsx:51-53 | an empty term keeps every item |
| Home.SearchTwice | client/src/pages/Home.jsx:51-53 | searching the result again with the same term changes nothing |
| Home.SearchIgnoresCase | client/src/pages/Home.jsx:52 | searching with the lower-cased term gives the same result as the term itself |
| Home.ListingsQueryRoundTrip | client/src/pages/Home.jsx:24-26 | the server reads back `category` only when a category is chosen and `sort` only when a sort is chosen, with their values |
| Home.ListingsUrlRoundTrip | client/src/pages/Home.jsx:23-28 | the query part of the request URL (after its first `?`) reads back as the chosen category and sort, for an API base without `?` |
| Home.WithId | client/src/pages/Home.jsx:41 | a mapped item is an object whose `id` is the item's `_id` and whose other keys read as in the spread item; `null` or `undefined` items throw |
| Home.FetchListings | client/src/pages/Home.jsx:19-49 | a failed request, error status or non-JSON body keeps the previous listings; a non-array body empties them; an array maps item by item, unless some item is `null` or `undefined`, in which case the previous listings stay |
| Home.FetchedItem | client/src/pages/Home.jsx:41 | each object item of a successful reply keeps every property except `id`, which takes the value of its `_id` |

## Findings

| source | as written | input that shows it | evidently intended | confidence | as-written member | corrected member |
|---|---|---|---|---|---|---|
| server/index.js:193-205 | a new conversation stores `displayName: senderName` and the like as given, but the item page (client/src/pages/ItemDetails.jsx:53-58) sends no names or photos; the store refuses `undefined` fields, so the add throws and the handler answers a server error | the item page's request for a pair with no conversation yet | the conversation is opened, with the missing names and photos left empty | medium, not executed | Chat.FindOrCreateAsWritten, Chat.ItemPageChatFails | Chat.FindOrCreate |
| server/index.js:270 | messages are sorted by `new Date(a.timestamp) - new Date(b.timestamp)`, but the document mapping (lines 59-60) converts only `createdAt` and `lastMessageTimestamp`, so a message's `timestamp` is still a Firestore Timestamp object; `new Date` of it is Invalid Date, every difference is NaN, and the sort keeps query order | a thread whose first stored message is stamped later than the second | messages listed oldest first | medium, not executed | Chat.ListMessagesAsWritten, Chat.ListMessagesAsWrittenUnordered | Chat.ListMessages |

## Left out

- Firestore, Express, multer, Cloudinary and process start-up. The collections are in-memory sequences, and document ids are naturals from a counter rather than random strings.
- Query results come back in store order. Firestore returns documents ordered by their random ids, so ties in the sorts are broken by store order in the model, not by id order. For the same reason `Chat.FirstConnecting` picks the earliest stored of several conversations connecting a pair, where the program picks the one with the lowest document id.
- Each handler is one atomic step. Interleavings between its awaits are not modelled: the scan-then-add race in find-or-create, and the append-then-update gap in send-message.
- Prices and timestamps are integers. `Number(price)` and date arithmetic in the sort comparators are not modelled (the message comparator's NaN is, see Findings), and the form's price arrives already converted.
- Request fields are strings or ids, except the names and photos of `POST /api/conversations`, which may be missing (see Findings). The store's failure on other `undefined` fields is not modelled, nor are conversations without a participants array reaching the server.
- `mapDoc` appears only as the id each record carries. Firestore timestamp conversion is modelled only by its effect on the message sort (see Findings); an `_id` field inside a document is not modelled.
- The second clock reading in send-message is a separate parameter (`summaryAt`), as are all other clock readings.
- The expiry sweep's log of the expired count is not modelled, and neither is the trigger's error log.
- The trigger is modelled on its own conversation shape, with participants as uid strings. It is not connected to the server's store, because the server stores participant objects and never writes the sub-collection the trigger listens on.
- `Json.Falsy` does not model NaN or `-0`, and `Json.Value` has no floating-point numbers.
- Home.Title: `toLowerCase` folds only ASCII letters. Unicode case mapping is not modelled.
- Home.ListingsQueryRoundTrip: values containing `&` are excluded because the client does not percent-encode them. Decoding and nested keys of the server's query parser are not modelled; `Home.Params` reads only flat `name=value` pairs.
- The API base URL (the environment's setting or the local default) is a parameter of `Home.ListingsUrl`.
- Home.FetchListings: the loading flag, error logging and the re-fetch on category or sort change are not modelled. A thrown error is modelled only by its effect, which is to keep the previous listings.
- Migration: a record whose write would throw is skipped (the transforms answer `None`), as the driver's per-record catch does. The driver loop, the MongoDB and Firestore connections and the logging are not modelled. The `new Date()` fallback is the parameter `now`.
- Users.SyncUser: a uid containing `/`, which Firestore reads as a path, is not modelled; only the empty uid is rejected.
- ChatProperties.SendMessageBecomesLatest: it is stated of the intended `Chat.ListMessages`. The handler as written does not order messages (see Findings), so in the program a new message is listed wherever its random document id falls. Even in the intended order, a message stamped at the same time as an earlier one is last only because the model breaks ties by store order.
- Chat.ListMessages: it is the intended oldest-first order, not what the handler returns; `Chat.ListMessagesAsWritten` is the handler as written, whose query order is the model's store order rather than Firestore's document-id order.
- Json.Member: reads of `length` and of index keys on arrays and strings are outside its precondition, and properties inherited from prototypes (`constructor`, `toString` and the like) read as `undefined`; the model only reads the own data keys `title`, `_id`, `uid`, `displayName` and `photoURL`.
- Migration.DocumentId: a uid containing `/`, which Firestore reads as a path, is not modelled.
- Rendering, routing, polling timers and scrolling in the other pages are not modelled, nor is Google sign-in with its e-mail domain check.

=== FILE: chat.dfy ===
/**
 * The chat half of the REST server (server/index.js, routes 5 to 8): the
 * conversation registry with its find-or-create lookup by participant pair,
 * the per-user conversation listing, and the message log with its
 * denormalised last-message summary. Each handler is one atomic step on the
 * store.
 */
module Chat {
  import opened Prelude
  import opened Seqs
  import opened Records

  /** Body of `POST /api/conversations`. */
  datatype ConversationRequest = ConversationRequest(
    senderId: string,
    senderName: string,
    senderPhoto: string,
    receiverId: string,
    receiverName: string,
    receiverPhoto: string,
    listingId: Id,
    listingTitle: string)

  /** Body of `POST /api/messages`. */
  datatype MessageRequest = MessageRequest(conversationId: Id, senderId: string, text: string)

  /** Both uids occur among the participants of `c` (in any order, possibly as the same entry). */
  predicate Connects(c: Conversation, a: string, b: string) {
    Involves(c, a) && Involves(c, b)
  }

  /** `i` is the position of the first conversation of `cs` that connects `a` and `b`. */
  predicate FirstConnectingAt(cs: seq<Conversation>, a: string, b: string, i: nat) {
    && i < |cs|
    && Connects(cs[i], a, b)
    && forall j :: 0 <= j < i ==> !Connects(cs[j], a, b)
  }

  /** The scan of the find-or-create handler: the first conversation in store order connecting `a` and `b`. */
  function FirstConnecting(cs: seq<Conversation>, a: string, b: string): (r: Option<nat>)
    ensures r.Some? ==> FirstConnectingAt(cs, a, b, r.value)
    ensures r.None? ==> forall j :: 0 <= j < |cs| ==> !Connects(cs[j], a, b)
    decreases |cs|
  {
    if |cs| == 0 then None
    else if Connects(cs[0], a, b) then Some(0)
    else
      match FirstConnecting(cs[1..], a, b)
      case None => None
      case Some(i) =>
        assert forall j :: 1 <= j < i + 1 ==> cs[j] == cs[1..][j - 1];
        Some(i + 1)
  }

  /**
   * `c'` is the reused conversation `c` after a request: only the listing
   * context may change, and the title is only replaced together with a
   * different listing id.
   */
  predicate Retargeted(c: Conversation, c': Conversation, req: ConversationRequest) {
    && c'.id == c.id
    && c'.participants == c.participants
    && c'.lastMessage == c.lastMessage
    && c'.lastMessageTimestamp == c.lastMessageTimestamp
    && c'.lastMessageBy == c.lastMessageBy
    && c'.listingId == req.listingId
    && c'.listingTitle == (if c.listingId == req.listingId then c.listingTitle else req.listingTitle)
  }

  /** `c` is a conversation freshly opened for `req` at time `now`, with an empty summary. */
  predicate Opened(c: Conversation, req: ConversationRequest, now: int) {
    && c.participants == [Participant(req.senderId, req.senderName, req.senderPhoto),
                          Participant(req.receiverId, req.receiverName, req.receiverPhoto)]
    && c.listingId == req.listingId
    && c.listingTitle == req.listingTitle
    && c.lastMessage == ""
    && c.lastMessageBy == ""
    && c.lastMessageTimestamp == now
  }

  predicate ConversationIdUnused(db: Db, id: Id) {
    forall i :: 0 <= i < |db.conversations| ==> db.conversations[i].id != id
  }

  /**
   * `POST /api/conversations`. Reuses the first stored conversation whose
   * participants include both uids, moving it to the requested listing when
   * its listing id differs; otherwise adds one new conversation.
   */
  function FindOrCreate(db: Db, req: ConversationRequest, now: int): (r: Step<Conversation>)
    requires Valid(db)
    ensures Valid(r.db)
    ensures r.db.listings == db.listings && r.db.messages == db.messages && r.db.users == db.users
    ensures r.response.Ok? || r.response.Created?
    ensures r.response.Ok? <==>
              exists i :: 0 <= i < |db.conversations| && Connects(db.conversations[i], req.senderId, req.receiverId)
    ensures r.response.Ok? ==>
              exists i: nat :: && FirstConnectingAt(db.conversations, req.senderId, req.receiverId, i)
                          && |r.db.conversations| == |db.conversations|
                          && r.db.conversations[i] == r.response.value
                          && Retargeted(db.conversations[i], r.response.value, req)
                          && forall j :: 0 <= j < |db.conversations| && j != i ==> r.db.conversations[j] == db.conversations[j]
    ensures r.response.Created? ==>
              && r.db.conversations == db.conversations + [r.response.value]
              && Opened(r.response.value, req, now)
              && ConversationIdUnused(db, r.response.value.id)
  {
    var cs := db.conversations;
    match FirstConnecting(cs, req.senderId, req.receiverId)
    case Some(i) =>
      var existing := cs[i];
      var updated :=
        if existing.listingId != req.listingId
        then existing.(listingId := req.listingId, listingTitle := req.listingTitle)
        else existing;
      Step(db.(conversations := cs[i := updated]), Ok(updated))
    case None =>
      var conv := Conversation(
        db.nextId,
        [Participant(req.senderId, req.senderName, req.senderPhoto),
         Participant(req.receiverId, req.receiverName, req.receiverPhoto)],
        req.listingId, req.listingTitle, "", now, "");
      Step(db.(conversations := cs + [conv], nextId := db.nextId + 1), Created(conv))
  }

  /**
   * The body of `POST /api/conversations` as it arrives: the names and
   * photos are `None` when the client leaves them out (they read as
   * `undefined`).
   */
  datatype ConversationBody = ConversationBody(
    senderId: string,
    senderName: Option<string>,
    senderPhoto: Option<string>,
    receiverId: string,
    receiverName: Option<string>,
    receiverPhoto: Option<string>,
    listingId: Id,
    listingTitle: string)

  /** The body carries every name and photo the new participants are built from. */
  predicate ProfilesPresent(b: ConversationBody) {
    b.senderName.Some? && b.senderPhoto.Some? && b.receiverName.Some? && b.receiverPhoto.Some?
  }

  /** The body read as a request, a missing name or photo taken as the empty string. */
  function Completed(b: ConversationBody): (r: ConversationRequest)
    ensures r.senderId == b.senderId && r.receiverId == b.receiverId
    ensures r.listingId == b.listingId && r.listingTitle == b.listingTitle
    ensures ProfilesPresent(b) ==> r.senderName == b.senderName.value && r.senderPhoto == b.senderPhoto.value &&
                                   r.receiverName == b.receiverName.value && r.receiverPhoto == b.receiverPhoto.value
  {
    ConversationRequest(
      b.senderId, OrEmpty(b.senderName), OrEmpty(b.senderPhoto),
      b.receiverId, OrEmpty(b.receiverName), OrEmpty(b.receiverPhoto),
      b.listingId, b.listingTitle)
  }

  function OrEmpty(s: Option<string>): string {
    if s.Some? then s.value else ""
  }

  /**
   * `POST /api/conversations` as written. A new conversation stores the
   * names and photos as given, and the store rejects an `undefined` field:
   * the add throws and the handler answers a server error, writing nothing.
   * Reusing a conversation does not touch the names, so it is unaffected.
   */
  function FindOrCreateAsWritten(db: Db, b: ConversationBody, now: int): (r: Step<Conversation>)
    requires Valid(db)
    ensures ProfilesPresent(b) ==> r == FindOrCreate(db, Completed(b), now)
    ensures (exists i :: 0 <= i < |db.conversations| && Connects(db.conversations[i], b.senderId, b.receiverId)) ==>
              r == FindOrCreate(db, Completed(b), now)
    ensures !ProfilesPresent(b) ==>
              (r.response.ServerError? <==>
                 forall i :: 0 <= i < |db.conversations| ==> !Connects(db.conversations[i], b.senderId, b.receiverId))
    ensures r.response.ServerError? ==> r.db == db
  {
    if FirstConnecting(db.conversations, b.senderId, b.receiverId).None? && !ProfilesPresent(b)
    then Step(db, ServerError)
    else FindOrCreate(db, Completed(b), now)
  }

  /**
   * The request the item page sends, with no names or photos, to a store
   * where the pair has no conversation yet: as written it fails, while the
   * intended handler opens the conversation.
   */
  lemma ItemPageChatFails()
    ensures var db := Db([], [], [], map[], 0);
            var b := ConversationBody("buyer", None, None, "seller", None, None, 5, "Bike");
            && FindOrCreateAsWritten(db, b, 0).response == ServerError
            && FindOrCreate(db, Completed(b), 0).response.Created?
  {
    var db := Db([], [], [], map[], 0);
    var b := ConversationBody("buyer", None, None, "seller", None, None, 5, "Bike");
    assert FirstConnecting(db.conversations, b.senderId, b.receiverId).None?;
  }

  /** The conversations with a participant `uid`, in store order. */
  function Involving(cs: seq<Conversation>, uid: string): (r: seq<Conversation>)
    ensures forall c :: multiset(r)[c] == if Involves(c, uid) then multiset(cs)[c] else 0
  {
    FilterCount((c: Conversation) => Involves(c, uid), cs);
    Filter((c: Conversation) => Involves(c, uid), cs)
  }

  /**
   * `GET /api/conversations/:userId`: the user's conversations, most recent
   * summary first.
   */
  function ListConversations(db: Db, uid: string): (r: seq<Conversation>)
    ensures forall c :: multiset(r)[c] == if Involves(c, uid) then multiset(db.conversations)[c] else 0
    ensures forall i, j :: 0 <= i < j < |r| ==> r[i].lastMessageTimestamp >= r[j].lastMessageTimestamp
  {
    SortBy(Involving(db.conversations, uid), ConversationTime, Descending)
  }

  /** Conversations with equal timestamps are listed in store order. */
  lemma ListConversationsStable(db: Db, uid: string, t: int)
    ensures WithKey(ListConversations(db, uid), ConversationTime, t) == WithKey(Involving(db.conversations, uid), ConversationTime, t)
  {
    SortByStable(Involving(db.conversations, uid), ConversationTime, Descending, t);
  }

  predicate ConversationExists(db: Db, id: Id) {
    exists i :: 0 <= i < |db.conversations| && db.conversations[i].id == id
  }

  /** The conversation summary after `text` was sent by `senderId` at `at`. */
  function Summarise(c: Conversation, text: string, senderId: string, at: int): (c': Conversation)
    ensures c'.id == c.id && c'.participants == c.participants
    ensures c'.listingId == c.listingId && c'.listingTitle == c.listingTitle
    ensures c'.lastMessage == text && c'.lastMessageBy == senderId && c'.lastMessageTimestamp == at
  {
    c.(lastMessage := text, lastMessageTimestamp := at, lastMessageBy := senderId)
  }

  /**
   * `POST /api/messages`. Stores the message first (stamped `sentAt`), then
   * updates the summary of the conversation it names (stamped `summaryAt`,
   * a second clock reading). When no such conversation exists the update
   * fails and the handler answers 500, but the message stays stored.
   */
  function SendMessage(db: Db, req: MessageRequest, sentAt: int, summaryAt: int): (r: Step<Message>)
    requires Valid(db)
    ensures Valid(r.db)
    ensures r.db.listings == db.listings && r.db.users == db.users
    ensures |r.db.messages| == |db.messages| + 1 && r.db.messages[..|db.messages|] == db.messages
    ensures var m := r.db.messages[|db.messages|];
            && m.conversationId == req.conversationId && m.senderId == req.senderId
            && m.text == req.text && m.timestamp == sentAt
            && forall i :: 0 <= i < |db.messages| ==> db.messages[i].id != m.id
    ensures ConversationExists(db, req.conversationId) ==> r.response == Created(r.db.messages[|db.messages|])
    ensures !ConversationExists(db, req.conversationId) ==> r.response == ServerError && r.db.conversations == db.conversations
    ensures |r.db.conversations| == |db.conversations|
    ensures forall i :: 0 <= i < |db.conversations| ==>
              if db.conversations[i].id == req.conversationId
              then r.db.conversations[i] == Summarise(db.conversations[i], req.text, req.senderId, summaryAt)
              else r.db.conversations[i] == db.conversations[i]
  {
    var m := Message(db.nextId, req.conversationId, req.senderId, req.text, sentAt);
    var messages := db.messages + [m];
    var cs := db.conversations;
    if ConversationExists(db, req.conversationId) then
      var cs' := seq(|cs|, i requires 0 <= i < |cs| =>
                      if cs[i].id == req.conversationId then Summarise(cs[i], req.text, req.senderId, summaryAt) else cs[i]);
      Step(db.(messages := messages, conversations := cs', nextId := db.nextId + 1), Created(m))
    else
      Step(db.(messages := messages, nextId := db.nextId + 1), ServerError)
  }

  /** The messages of one conversation, in store order. */
  function Thread(ms: seq<Message>, conversationId: Id): (r: seq<Message>)
    ensures forall m :: multiset(r)[m] == if m.conversationId == conversationId then multiset(ms)[m] else 0
  {
    FilterCount((m: Message) => m.conversationId == conversationId, ms);
    Filter((m: Message) => m.conversationId == conversationId, ms)
  }

  /** `GET /api/messages/:conversationId`: the conversation's messages, oldest first. */
  function ListMessages(db: Db, conversationId: Id): (r: seq<Message>)
    ensures forall m :: multiset(r)[m] == if m.conversationId == conversationId then multiset(db.messages)[m] else 0
    ensures forall i, j :: 0 <= i < j < |r| ==> r[i].timestamp <= r[j].timestamp
  {
    SortBy(Thread(db.messages, conversationId), MessageTime, Ascending)
  }

  /**
   * The sort key the message comparator actually sees. A message's stored
   * `timestamp` comes back from the store as a Timestamp object, which the
   * document mapping does not convert, and `new Date` of it is Invalid Date;
   * the comparator's difference is then NaN, which the sort treats as
   * "equal". Every message thus carries the same key.
   */
  function InvalidDateKey(m: Message): int {
    0
  }

  /** `GET /api/messages/:conversationId` as written: the sort on `InvalidDateKey` leaves the thread in query order. */
  function ListMessagesAsWritten(db: Db, conversationId: Id): (r: seq<Message>)
    ensures r == Thread(db.messages, conversationId)
  {
    var thread := Thread(db.messages, conversationId);
    SortByConstantKey(thread, InvalidDateKey, Ascending, 0);
    SortBy(thread, InvalidDateKey, Ascending)
  }

  /**
   * A reply stored after an earlier-stamped message of the same thread: the
   * handler as written lists them in store order, the intended oldest-first
   * order puts the reply's predecessor second.
   */
  lemma ListMessagesAsWrittenUnordered()
    ensures var late := Message(0, 7, "a", "sent second, stored first", 2);
            var early := Message(1, 7, "b", "sent first, stored second", 1);
            var db := Db([], [], [late, early], map[], 2);
            && ListMessagesAsWritten(db, 7) == [late, early]
            && ListMessages(db, 7) == [early, late]
  {
    var late := Message(0, 7, "a", "sent second, stored first", 2);
    var early := Message(1, 7, "b", "sent first, stored second", 1);
    var db := Db([], [], [late, early], map[], 2);
    var thread := Thread(db.messages, 7);
    assert thread == [late, early] by {
      assert [late, early][1..] == [early];
      assert [early][1..] == [];
    }
    OutOfOrderPair(late, early);
  }

  /** Two messages stored latest-stamped first come out of the oldest-first sort swapped. */
  lemma OutOfOrderPair(a: Message, b: Message)
    requires a.timestamp > b.timestamp
    ensures SortBy([a, b], MessageTime, Ascending) == [b, a]
  {
    assert [a, b][1..] == [b];
    assert [b][1..] == [];
    assert SortBy([b], MessageTime, Ascending) == [b];
    assert [b][1..] == [];
    assert Insert(a, [b], MessageTime, Ascending) == [b] + Insert(a, [], MessageTime, Ascending);
  }

  /** Messages with equal timestamps are listed in the order they were stored. */
  lemma ListMessagesStable(db: Db, conversationId: Id, t: int)
    ensures WithKey(ListMessages(db, conversationId), MessageTime, t) == WithKey(Thread(db.messages, conversationId), MessageTime, t)
  {
    SortByStable(Thread(db.messages, conversationId), MessageTime, Ascending, t);
  }
}

=== FILE: chat_props.dfy ===
/**
 * Properties relating several calls of the chat handlers: the identity of
 * a pair's conversation across repeated find-or-create calls, the
 * at-most-one-conversation-per-pair invariant, and the agreement between a
 * conversation's summary and the newest message of its thread.
 */
module ChatProperties {
  import opened Prelude
  import opened Seqs
  import opened Records
  import opened Chat

  lemma ConnectsSymmetric(c: Conversation, a: string, b: string)
    ensures Connects(c, a, b) == Connects(c, b, a)
  {
  }

  /** A conversation opened for a request connects its sender and receiver. */
  lemma OpenedConnects(c: Conversation, req: ConversationRequest, now: int)
    requires Opened(c, req, now)
    ensures Connects(c, req.senderId, req.receiverId)
  {
    assert c.participants[0].uid == req.senderId;
    assert c.participants[1].uid == req.receiverId;
  }

  /** After one find-or-create, the pair's first connecting conversation is the one it answered with. */
  lemma FirstConnectingAfter(db: Db, req: ConversationRequest, now: int)
    requires Valid(db)
    ensures var s := FindOrCreate(db, req, now);
            exists i: nat :: && FirstConnectingAt(s.db.conversations, req.senderId, req.receiverId, i)
                             && s.db.conversations[i] == s.response.value
  {
    var s := FindOrCreate(db, req, now);
    var a, b := req.senderId, req.receiverId;
    if s.response.Ok? {
      var i: nat :| && FirstConnectingAt(db.conversations, a, b, i)
                    && |s.db.conversations| == |db.conversations|
                    && s.db.conversations[i] == s.response.value
                    && Retargeted(db.conversations[i], s.response.value, req)
                    && forall j :: 0 <= j < |db.conversations| && j != i ==> s.db.conversations[j] == db.conversations[j];
      SameParticipantsSameConnects(db.conversations[i], s.db.conversations[i], a, b);
      assert FirstConnectingAt(s.db.conversations, a, b, i);
    } else {
      var n := |db.conversations|;
      OpenedConnects(s.response.value, req, now);
      assert s.db.conversations[n] == s.response.value;
      assert forall j :: 0 <= j < n ==> s.db.conversations[j] == db.conversations[j];
      assert FirstConnectingAt(s.db.conversations, a, b, n);
    }
  }

  lemma SameParticipantsSameConnects(c: Conversation, c': Conversation, a: string, b: string)
    requires c'.participants == c.participants
    ensures Connects(c', a, b) == Connects(c, a, b)
  {
  }

  /**
   * Two find-or-create calls for the same pair, in either order, answer with
   * the same conversation id; the second call adds nothing, so the store
   * grows by at most one; and the stored listing is the latest call's.
   */
  lemma FindOrCreateTwice(db: Db, req1: ConversationRequest, now1: int, req2: ConversationRequest, now2: int)
    requires Valid(db)
    requires || (req2.senderId == req1.senderId && req2.receiverId == req1.receiverId)
             || (req2.senderId == req1.receiverId && req2.receiverId == req1.senderId)
    ensures var s1 := FindOrCreate(db, req1, now1);
            var s2 := FindOrCreate(s1.db, req2, now2);
            && s2.response.Ok?
            && s2.response.value.id == s1.response.value.id
            && |s2.db.conversations| == |s1.db.conversations| <= |db.conversations| + 1
            && s2.response.value.listingId == req2.listingId
            && s2.response.value in s2.db.conversations
  {
    var s1 := FindOrCreate(db, req1, now1);
    FirstConnectingAfter(db, req1, now1);
    var i: nat :| && FirstConnectingAt(s1.db.conversations, req1.senderId, req1.receiverId, i)
                  && s1.db.conversations[i] == s1.response.value;
    forall j | 0 <= j < |s1.db.conversations|
      ensures Connects(s1.db.conversations[j], req2.senderId, req2.receiverId) == Connects(s1.db.conversations[j], req1.senderId, req1.receiverId)
    {
      ConnectsSymmetric(s1.db.conversations[j], req1.senderId, req1.receiverId);
    }
    assert FirstConnectingAt(s1.db.conversations, req2.senderId, req2.receiverId, i);
    var s2 := FindOrCreate(s1.db, req2, now2);
    assert s2.response.Ok?;
    var k: nat :| && FirstConnectingAt(s1.db.conversations, req2.senderId, req2.receiverId, k)
                  && s2.db.conversations[k] == s2.response.value
                  && Retargeted(s1.db.conversations[k], s2.response.value, req2);
    assert k == i;
  }

  /**
   * No two stored conversations share two distinct participants: the
   * property the find-or-create scan is meant to maintain.
   */
  ghost predicate PairsUnique(cs: seq<Conversation>) {
    forall i, j, a, b :: 0 <= i < j < |cs| && a != b && Connects(cs[i], a, b) ==> !Connects(cs[j], a, b)
  }

  /** The only uids a freshly opened conversation involves are its sender's and receiver's. */
  lemma OpenedInvolvesOnly(c: Conversation, req: ConversationRequest, now: int, u: string)
    requires Opened(c, req, now)
    requires Involves(c, u)
    ensures u == req.senderId || u == req.receiverId
  {
    var k :| 0 <= k < |c.participants| && c.participants[k].uid == u;
    assert k == 0 || k == 1;
  }

  /** Find-or-create never creates a second conversation for a pair that already has one. */
  lemma FindOrCreateKeepsPairsUnique(db: Db, req: ConversationRequest, now: int)
    requires Valid(db)
    requires PairsUnique(db.conversations)
    ensures PairsUnique(FindOrCreate(db, req, now).db.conversations)
  {
    var s := FindOrCreate(db, req, now);
    var cs, cs' := db.conversations, s.db.conversations;
    if s.response.Ok? {
      var i: nat :| && FirstConnectingAt(cs, req.senderId, req.receiverId, i)
                    && |cs'| == |cs|
                    && cs'[i] == s.response.value
                    && Retargeted(cs[i], s.response.value, req)
                    && forall j :: 0 <= j < |cs| && j != i ==> cs'[j] == cs[j];
      assert forall j :: 0 <= j < |cs| ==> cs'[j].participants == cs[j].participants;
      forall j, a, b | 0 <= j < |cs|
        ensures Connects(cs'[j], a, b) == Connects(cs[j], a, b)
      {
        SameParticipantsSameConnects(cs[j], cs'[j], a, b);
      }
    } else {
      var c := s.response.value;
      var n := |cs|;
      assert forall j :: 0 <= j < n ==> cs'[j] == cs[j];
      forall i, j, a, b | 0 <= i < j < |cs'| && a != b && Connects(cs'[i], a, b)
        ensures !Connects(cs'[j], a, b)
      {
        if j == n && Connects(c, a, b) {
          OpenedInvolvesOnly(c, req, now, a);
          OpenedInvolvesOnly(c, req, now, b);
          assert false;
        }
      }
    }
  }

  lemma ThreadAppend(ms: seq<Message>, m: Message, conversationId: Id)
    requires m.conversationId == conversationId
    ensures Thread(ms + [m], conversationId) == Thread(ms, conversationId) + [m]
  {
    var p := (x: Message) => x.conversationId == conversationId;
    FilterAppend(p, ms, [m]);
    assert Filter(p, [m]) == [m];
  }

  /** Every message of a thread of `ms` has a timestamp no later than `bound` when all of `ms`'s do. */
  lemma ThreadBounded(ms: seq<Message>, conversationId: Id, bound: int)
    requires forall i :: 0 <= i < |ms| && ms[i].conversationId == conversationId ==> ms[i].timestamp <= bound
    ensures forall i :: 0 <= i < |Thread(ms, conversationId)| ==> Thread(ms, conversationId)[i].timestamp <= bound
  {
    var t := Thread(ms, conversationId);
    forall i | 0 <= i < |t|
      ensures t[i].timestamp <= bound
    {
      assert t[i] in multiset(t);
      assert t[i] in multiset(ms);
    }
  }

  /**
   * Sending a message to an existing conversation, at a time no earlier than
   * any message already in its thread, makes that message the newest one
   * listed, and the conversation's summary names its text and sender.
   */
  lemma SendMessageBecomesLatest(db: Db, req: MessageRequest, sentAt: int, summaryAt: int, k: nat)
    requires Valid(db)
    requires 0 <= k < |db.conversations| && db.conversations[k].id == req.conversationId
    requires forall i :: 0 <= i < |db.messages| && db.messages[i].conversationId == req.conversationId ==> db.messages[i].timestamp <= sentAt
    ensures var s := SendMessage(db, req, sentAt, summaryAt);
            var listed := ListMessages(s.db, req.conversationId);
            && s.response.Created?
            && |listed| > 0 && listed[|listed| - 1] == s.response.value
            && s.db.conversations[k].lastMessage == listed[|listed| - 1].text
            && s.db.conversations[k].lastMessageBy == listed[|listed| - 1].senderId
  {
    var s := SendMessage(db, req, sentAt, summaryAt);
    var m := s.db.messages[|db.messages|];
    assert s.db.messages == db.messages + [m];
    ThreadAppend(db.messages, m, req.conversationId);
    var thread := Thread(s.db.messages, req.conversationId);
    ThreadBounded(db.messages, req.conversationId, sentAt);
    assert forall i :: 0 <= i < |thread| ==> MessageTime(thread[i]) <= MessageTime(thread[|thread| - 1]);
    SortedLastIsInputLast(thread, MessageTime);
  }
}

=== FILE: home.dfy ===
/**
 * The listing feed of the web client's home page
 * (client/src/pages/Home.jsx): the query string it sends to the listing
 * route, how it turns the reply into its `listings` state, and the title
 * search it applies on top of that state.
 */
module Home {
  import opened Prelude
  import opened Seqs
  import opened Json

  // ---------------------------------------------------------------------
  // Text

  /** `toLowerCase` on one character; only the ASCII letters are folded. */
  function LowerChar(c: char): char {
    if 'A' <= c <= 'Z' then (c as int + 32) as char else c
  }

  function Lower(s: string): string {
    seq(|s|, i requires 0 <= i < |s| => LowerChar(s[i]))
  }

  /** Lower-casing a lower-cased string changes nothing. */
  lemma LowerIdempotent(s: string)
    ensures Lower(Lower(s)) == Lower(s)
  {
    assert forall i :: 0 <= i < |s| ==> Lower(Lower(s))[i] == Lower(s)[i];
  }

  /** `n` occurs in `h` at position `i`. */
  predicate OccursAt(h: string, n: string, i: nat) {
    i + |n| <= |h| && h[i..i + |n|] == n
  }

  /** `h.includes(n)`: a left-to-right scan for `n`; the empty string occurs everywhere. */
  function Includes(h: string, n: string): bool
    decreases |h|
  {
    if |n| > |h| then false
    else if h[..|n|] == n then true
    else Includes(h[1..], n)
  }

  /** The scan finds `n` exactly when `n` occurs at some position of `h`. */
  lemma {:induction false} IncludesIff(h: string, n: string)
    ensures Includes(h, n) <==> exists i: nat :: OccursAt(h, n, i)
    decreases |h|
  {
    if |n| > |h| {
      assert forall i: nat :: !OccursAt(h, n, i);
    } else if h[..|n|] == n {
      assert OccursAt(h, n, 0);
    } else {
      IncludesIff(h[1..], n);
      forall i: nat | OccursAt(h, n, i)
        ensures i > 0 && OccursAt(h[1..], n, i - 1)
      {
        assert h[1..][i - 1..i - 1 + |n|] == h[i..i + |n|];
      }
      forall i: nat | OccursAt(h[1..], n, i)
        ensures OccursAt(h, n, i + 1)
      {
        assert h[1..][i..i + |n|] == h[i + 1..i + 1 + |n|];
      }
    }
  }

  // ---------------------------------------------------------------------
  // Title search

  /** `item.title` when it is a string; anything else makes `toLowerCase` throw. */
  function Title(item: Value): (r: Option<string>)
    ensures r.Some? <==> item.Obj? && Get(item.fields, "title").Str?
    ensures r.Some? ==> Get(item.fields, "title") == Str(r.value)
  {
    match Member(item, "title")
    case Some(Str(t)) => Some(t)
    case _ => None
  }

  /** The search predicate: the lower-cased title contains the lower-cased term. */
  predicate Matches(item: Value, term: string) {
    Title(item).Some? && Includes(Lower(Title(item).value), Lower(term))
  }

  /**
   * `filteredListings`: the items whose title contains the search term,
   * ignoring case, in their original order. One item without a string
   * title makes the whole filter throw (`None`).
   */
  function Search(listings: seq<Value>, term: string): (r: Option<seq<Value>>)
    ensures r.None? <==> exists i :: 0 <= i < |listings| && Title(listings[i]).None?
    ensures r.Some? ==> forall x :: multiset(r.value)[x] == if Matches(x, term) then multiset(listings)[x] else 0
    ensures r.Some? ==> IsSubsequence(r.value, listings)
  {
    if exists i :: 0 <= i < |listings| && Title(listings[i]).None? then None
    else
      var p := (x: Value) => Matches(x, term);
      FilterCount(p, listings);
      FilterIsSubsequence(p, listings);
      Some(Filter(p, listings))
  }

  /** An item of the listings survives the search iff the term occurs in its title, ignoring case. */
  lemma SearchKeeps(listings: seq<Value>, term: string, x: Value)
    requires Search(listings, term).Some?
    ensures x in Search(listings, term).value <==>
              x in listings && exists i: nat :: OccursAt(Lower(Title(x).value), Lower(term), i)
  {
    var r := Search(listings, term).value;
    assert x in r <==> multiset(r)[x] > 0;
    assert x in listings <==> multiset(listings)[x] > 0;
    if x in listings {
      assert Title(x).Some?;
      IncludesIff(Lower(Title(x).value), Lower(term));
    }
  }

  /** An empty search term keeps every item, whenever the search does not throw. */
  lemma SearchEmptyTerm(listings: seq<Value>)
    requires Search(listings, "").Some?
    ensures Search(listings, "").value == listings
  {
    var p := (x: Value) => Matches(x, "");
    forall i | 0 <= i < |listings|
      ensures p(listings[i])
    {
      assert Lower(Title(listings[i]).value)[..0] == Lower("");
    }
    FilterKeepsAll(p, listings);
  }

  /** Searching the result again with the same term changes nothing. */
  lemma SearchTwice(listings: seq<Value>, term: string)
    requires Search(listings, term).Some?
    ensures Search(Search(listings, term).value, term) == Search(listings, term)
  {
    var p := (x: Value) => Matches(x, term);
    var once := Filter(p, listings);
    assert forall i :: 0 <= i < |once| ==> Title(once[i]).Some?;
    FilterIdempotent(p, listings);
  }

  /** The search ignores the case of the term. */
  lemma SearchIgnoresCase(listings: seq<Value>, term: string)
    ensures Search(listings, Lower(term)) == Search(listings, term)
  {
    LowerIdempotent(term);
    FilterSame((x: Value) => Matches(x, Lower(term)), (x: Value) => Matches(x, term), listings);
  }

  // ---------------------------------------------------------------------
  // Query string

  /** What `fetchListings` appends after `/api/listings?`: one `&name=value` per non-empty choice. */
  function ListingsQuery(category: string, sort: string): string {
    (if category != "" then "&category=" + category else "") + (if sort != "" then "&sort=" + sort else "")
  }

  /** The request URL, for the configured API base (the environment's, or the local default). */
  function ListingsUrl(apiUrl: string, category: string, sort: string): string {
    apiUrl + "/api/listings?" + ListingsQuery(category, sort)
  }

  /** `s.split(sep)`. */
  function Split(s: string, sep: char): (r: seq<string>)
    ensures |r| > 0
  {
    if |s| == 0 then [""]
    else
      var rest := Split(s[1..], sep);
      if s[0] == sep then [""] + rest else [[s[0]] + rest[0]] + rest[1..]
  }

  lemma {:induction false} SplitJoin(a: string, sep: char, b: string)
    requires sep !in a
    ensures Split(a + [sep] + b, sep) == [a] + Split(b, sep)
    decreases |a|
  {
    if |a| > 0 {
      assert (a + [sep] + b)[1..] == a[1..] + [sep] + b;
      SplitJoin(a[1..], sep, b);
      assert [a[0]] + a[1..] == a;
    } else {
      assert (a + [sep] + b)[1..] == b;
    }
  }

  lemma {:induction false} SplitNone(a: string, sep: char)
    requires sep !in a
    ensures Split(a, sep) == [a]
    decreases |a|
  {
    if |a| > 0 {
      SplitNone(a[1..], sep);
      assert [a[0]] + a[1..] == a;
    }
  }

  /** A `name=value` segment split at its first `=`; a segment without one has an empty value. */
  function NameValue(segment: string): (r: (string, string))
    ensures '=' !in r.0
    ensures '=' in segment ==> segment == r.0 + "=" + r.1
    ensures '=' !in segment ==> r == (segment, "")
  {
    if |segment| == 0 then ("", "")
    else if segment[0] == '=' then ("", segment[1..])
    else
      var (n, v) := NameValue(segment[1..]);
      assert segment == [segment[0]] + segment[1..];
      ([segment[0]] + n, v)
  }

  /** How the server reads a query string: its non-empty `&`-separated segments as name/value pairs. */
  function Params(query: string): seq<(string, string)> {
    Pairs(Split(query, '&'))
  }

  function Pairs(segments: seq<string>): seq<(string, string)> {
    if |segments| == 0 then []
    else if segments[0] == "" then Pairs(segments[1..])
    else [NameValue(segments[0])] + Pairs(segments[1..])
  }

  /** Reading the pair back from `name=value` when the name holds no `=`. */
  lemma {:induction false} NameValueJoin(n: string, v: string)
    requires '=' !in n
    ensures NameValue(n + "=" + v) == (n, v)
    decreases |n|
  {
    if |n| > 0 {
      assert (n + "=" + v)[1..] == n[1..] + "=" + v;
      NameValueJoin(n[1..], v);
      assert [n[0]] + n[1..] == n;
    } else {
      assert (n + "=" + v)[1..] == v;
    }
  }

  /** A leading `&x` contributes the pair of `x`, followed by the pairs of what comes after. */
  lemma ParamsCons(x: string, rest: string)
    requires '&' !in x && x != ""
    requires rest == "" || rest[0] == '&'
    ensures Params("&" + x + rest) == [NameValue(x)] + Params(rest)
  {
    SplitJoin("", '&', x + rest);
    assert "&" + x + rest == "" + ['&'] + (x + rest);
    if rest == "" {
      SplitNone(x, '&');
      assert x + rest == x;
      assert Pairs([""] + [x]) == Pairs([x]) == [NameValue(x)] + Pairs([]);
    } else {
      var y := rest[1..];
      assert x + rest == x + ['&'] + y;
      SplitJoin(x, '&', y);
      SplitJoin("", '&', y);
      assert rest == "" + ['&'] + y;
      assert Pairs([""] + ([x] + Split(y, '&'))) == Pairs([x] + Split(y, '&'));
      assert ([x] + Split(y, '&'))[1..] == Split(y, '&');
      assert ([""] + Split(y, '&'))[1..] == Split(y, '&');
    }
  }

  /** The empty query holds no pairs. */
  lemma ParamsEmpty()
    ensures Params("") == []
  {
    assert Split("", '&') == [""];
    assert Pairs([""]) == Pairs([]);
  }

  /** `&name=value` reads back as its pair, when the value holds no `&`. */
  lemma ParamsPair(name: string, value: string, tail: string)
    requires '&' !in name && '=' !in name && name != "" && '&' !in value
    requires tail == "" || tail[0] == '&'
    ensures Params("&" + name + "=" + value + tail) == [(name, value)] + Params(tail)
  {
    var x := name + "=" + value;
    assert '&' !in x;
    NameValueJoin(name, value);
    ParamsCons(x, tail);
    assert "&" + x + tail == "&" + name + "=" + value + tail;
  }

  /**
   * The server reads back exactly the choices the client made: `category`
   * only when a category is chosen, `sort` only when a sort is chosen, with
   * their values, as long as neither value holds a `&`.
   */
  lemma ListingsQueryRoundTrip(category: string, sort: string)
    requires '&' !in category && '&' !in sort
    ensures Params(ListingsQuery(category, sort)) ==
              (if category != "" then [("category", category)] else []) +
              (if sort != "" then [("sort", sort)] else [])
  {
    var tail := if sort != "" then "&sort=" + sort else "";
    SortParams(sort);
    if category != "" {
      ParamsPair("category", category, tail);
      assert ListingsQuery(category, sort) == "&" + "category" + "=" + category + tail;
    } else {
      assert ListingsQuery(category, sort) == tail;
    }
  }

  /** The query string of a request URL: everything after its first `?`. */
  function QueryOf(url: string): (r: string)
    ensures '?' !in url ==> r == ""
  {
    if |url| == 0 then ""
    else if url[0] == '?' then url[1..]
    else QueryOf(url[1..])
  }

  /** A path without `?` followed by `?q` has query `q`. */
  lemma {:induction false} QueryOfJoin(path: string, q: string)
    requires '?' !in path
    ensures QueryOf(path + "?" + q) == q
    decreases |path|
  {
    if |path| == 0 {
      assert path + "?" + q == ['?'] + q;
    } else {
      assert (path + "?" + q)[1..] == path[1..] + "?" + q;
      QueryOfJoin(path[1..], q);
    }
  }

  /**
   * The request URL the client builds carries the chosen category and sort
   * through to the server, for an API base without `?` and values without `&`.
   */
  lemma ListingsUrlRoundTrip(apiUrl: string, category: string, sort: string)
    requires '?' !in apiUrl && '&' !in category && '&' !in sort
    ensures Params(QueryOf(ListingsUrl(apiUrl, category, sort))) ==
              (if category != "" then [("category", category)] else []) +
              (if sort != "" then [("sort", sort)] else [])
  {
    var path := apiUrl + "/api/listings";
    assert '?' !in path;
    assert ListingsUrl(apiUrl, category, sort) == path + "?" + ListingsQuery(category, sort);
    QueryOfJoin(path, ListingsQuery(category, sort));
    ListingsQueryRoundTrip(category, sort);
  }

  /** The `sort` part of the query on its own reads back as the chosen sort, if any. */
  lemma SortParams(sort: string)
    requires '&' !in sort
    ensures Params(if sort != "" then "&sort=" + sort else "") == (if sort != "" then [("sort", sort)] else [])
  {
    ParamsEmpty();
    if sort != "" {
      ParamsPair("sort", sort, "");
      assert "&" + "sort" + "=" + sort + "" == "&sort=" + sort;
    }
  }

  // ---------------------------------------------------------------------
  // Reply handling

  /** What `fetch` and `response.json()` deliver: a network failure, or a status and a body (`None`: not JSON). */
  datatype Reply = NetworkError | Reply(ok: bool, body: Option<Value>)

  /** The decimal digits of `n`, the property names of array and string elements. */
  function Decimal(n: nat): (r: string)
    ensures |r| > 0
  {
    var d := ['0' + (n % 10) as char];
    if n < 10 then d else Decimal(n / 10) + d
  }

  /** The own enumerable properties `{...v}` copies: an object's fields, one per element of an array or string, none otherwise. */
  function Spread(v: Value): (r: Object)
    ensures v.Obj? ==> r == v.fields
    ensures v.Arr? ==> Keys(r) == seq(|v.items|, i requires 0 <= i < |v.items| => Decimal(i))
    ensures v.Str? ==> Keys(r) == seq(|v.s|, i requires 0 <= i < |v.s| => Decimal(i))
    ensures !(v.Obj? || v.Arr? || v.Str?) ==> r == []
  {
    match v
    case Obj(fs) => fs
    case Arr(items) => seq(|items|, i requires 0 <= i < |items| => Field(Decimal(i), items[i]))
    case Str(s) => seq(|s|, i requires 0 <= i < |s| => Field(Decimal(i), Str([s[i]])))
    case _ => []
  }

  /** `{ ...item, id: item._id }`; reading `_id` of `null` or `undefined` throws. */
  function WithId(item: Value): (r: Option<Value>)
    ensures r.None? <==> item == Null || item == Undefined
    ensures r.Some? ==> && r.value.Obj?
                        && Get(r.value.fields, "id") == Member(item, "_id").value
                        && (forall k :: k != "id" ==> Get(r.value.fields, k) == Get(Spread(item), k))
                        && Keys(r.value.fields) == if HasKey(Spread(item), "id") then Keys(Spread(item)) else Keys(Spread(item)) + ["id"]
  {
    match Member(item, "_id")
    case None => None
    case Some(id) =>
      SetKeys(Spread(item), "id", id);
      Some(Obj(Set(Spread(item), "id", id)))
  }

  /**
   * `fetchListings`, as its effect on the `listings` state: a failed
   * request, an error status or a body that is not JSON throw and keep the
   * previous listings; a body that is not an array empties them; otherwise
   * every item gains an `id` copied from `_id`, unless one of them is
   * `null`, in which case the map throws and the previous listings stay.
   */
  function FetchListings(previous: seq<Value>, reply: Reply): (r: seq<Value>)
    ensures reply.NetworkError? || !reply.ok || reply.body.None? ==> r == previous
    ensures reply.Reply? && reply.ok && reply.body.Some? && !reply.body.value.Arr? ==> r == []
    ensures reply.Reply? && reply.ok && reply.body.Some? && reply.body.value.Arr? ==>
              var items := reply.body.value.items;
              if exists i :: 0 <= i < |items| && (items[i] == Null || items[i] == Undefined) then r == previous
              else |r| == |items| && forall i :: 0 <= i < |items| ==> Some(r[i]) == WithId(items[i])
  {
    match reply
    case NetworkError => previous
    case Reply(ok, body) =>
      if !ok || body.None? then previous
      else if !body.value.Arr? then []
      else
        match MapAll(WithId, body.value.items)
        case None => previous
        case Some(mapped) => mapped
  }

  /**
   * An object item of a successful array reply keeps every property but
   * `id`, which takes the value of its `_id`.
   */
  lemma FetchedItem(previous: seq<Value>, items: seq<Value>, i: nat)
    requires i < |items| && items[i].Obj?
    requires forall j :: 0 <= j < |items| ==> items[j] != Null && items[j] != Undefined
    ensures var r := FetchListings(previous, Reply(true, Some(Arr(items))));
            && |r| == |items|
            && r[i].Obj?
            && Get(r[i].fields, "id") == Get(items[i].fields, "_id")
            && forall k :: k != "id" ==> Get(r[i].fields, k) == Get(items[i].fields, k)
  {
    var r := FetchListings(previous, Reply(true, Some(Arr(items))));
    assert Some(r[i]) == WithId(items[i]);
  }
}

=== FILE: jobs.dfy ===
/**
 * The two cloud functions (firebase/functions/index.js): the daily sweep
 * that marks overdue listings expired, and the trigger that copies a new
 * message into its conversation's summary. The trigger reads conversations
 * whose participants are plain uid strings, a shape of its own.
 */
module Jobs {
  import opened Prelude
  import opened Records
  import opened Listings

  /** The sweep's query: active, with an expiry date strictly before `now`. Listings without one never match. */
  predicate Overdue(l: Listing, now: int) {
    l.status == Active && l.expiresAt.Some? && l.expiresAt.value < now
  }

  /** `checkListingExpiry`: every overdue listing becomes expired; nothing else is written. */
  function ExpireListings(db: Db, now: int): (r: Db)
    requires Valid(db)
    ensures Valid(r)
    ensures r.conversations == db.conversations && r.messages == db.messages && r.users == db.users && r.nextId == db.nextId
    ensures |r.listings| == |db.listings|
    ensures forall i :: 0 <= i < |db.listings| ==>
              && r.listings[i].status == (if Overdue(db.listings[i], now) then Expired else db.listings[i].status)
              && r.listings[i].(status := db.listings[i].status) == db.listings[i]
  {
    var ls := db.listings;
    db.(listings := seq(|ls|, i requires 0 <= i < |ls| =>
                          if Overdue(ls[i], now) then ls[i].(status := Expired) else ls[i]))
  }

  /** Running the sweep again at the same instant finds nothing left to expire. */
  lemma ExpireListingsIdempotent(db: Db, now: int)
    requires Valid(db)
    ensures ExpireListings(ExpireListings(db, now), now) == ExpireListings(db, now)
  {
    var once := ExpireListings(db, now);
    var twice := ExpireListings(once, now);
    assert forall i :: 0 <= i < |once.listings| ==> !Overdue(once.listings[i], now);
    assert twice.listings == once.listings;
  }

  /** A listing created by the server carries no expiry date, so no sweep ever expires it. */
  lemma CreatedListingNeverExpires(db: Db, form: ListingForm, imageUrls: seq<string>, created: int, now: int)
    requires Valid(db)
    ensures var s := CreateListing(db, form, imageUrls, created);
            var swept := ExpireListings(s.db, now);
            swept.listings[|db.listings|] == s.response.value
  {
    var s := CreateListing(db, form, imageUrls, created);
    assert s.db.listings[|db.listings|] == s.response.value;
    assert !Overdue(s.response.value, now);
  }

  /** A conversation document as the trigger reads it: participants are uid strings. */
  datatype TriggerConversation = TriggerConversation(
    participants: seq<string>,
    listingId: string,
    listingTitle: string,
    lastMessage: string,
    lastMessageTimestamp: int,
    lastMessageBy: string)

  /** The created message document the trigger receives. */
  datatype MessageSnapshot = MessageSnapshot(senderId: string, text: string, timestamp: int)

  /** The conversations after the trigger ran, and the receiver it determined (if it got that far). */
  datatype TriggerOutcome = TriggerOutcome(conversations: map<string, TriggerConversation>, receiverId: Option<string>)

  /** The first participant other than `senderId` (`Array.prototype.find`). */
  function OtherParticipant(participants: seq<string>, senderId: string): (r: Option<string>)
    ensures r.Some? ==> r.value in participants && r.value != senderId
    ensures r.None? <==> forall i :: 0 <= i < |participants| ==> participants[i] == senderId
    ensures r.Some? ==> exists k :: 0 <= k < |participants| && participants[k] == r.value &&
                                   forall j :: 0 <= j < k ==> participants[j] == senderId
  {
    if |participants| == 0 then None
    else if participants[0] != senderId then Some(participants[0])
    else
      var r := OtherParticipant(participants[1..], senderId);
      assert forall i :: 1 <= i < |participants| ==> participants[i] == participants[1..][i - 1];
      r
  }

  /**
   * `onMessageCreated`: with no snapshot, or no such conversation, nothing
   * is written; otherwise the conversation's summary takes the message's
   * text, timestamp and sender and every other field is kept.
   */
  function OnMessageCreated(conversations: map<string, TriggerConversation>, conversationId: string,
                            snapshot: Option<MessageSnapshot>): (r: TriggerOutcome)
    ensures snapshot.None? || conversationId !in conversations ==>
              r.conversations == conversations && r.receiverId == None
    ensures snapshot.Some? && conversationId in conversations ==>
              var m, c := snapshot.value, conversations[conversationId];
              && r.conversations.Keys == conversations.Keys
              && (forall id :: id in conversations && id != conversationId ==> r.conversations[id] == conversations[id])
              && r.conversations[conversationId].lastMessage == m.text
              && r.conversations[conversationId].lastMessageTimestamp == m.timestamp
              && r.conversations[conversationId].lastMessageBy == m.senderId
              && r.conversations[conversationId].participants == c.participants
              && r.conversations[conversationId].listingId == c.listingId
              && r.conversations[conversationId].listingTitle == c.listingTitle
              && r.receiverId == OtherParticipant(c.participants, m.senderId)
  {
    match snapshot
    case None => TriggerOutcome(conversations, None)
    case Some(m) =>
      if conversationId !in conversations then TriggerOutcome(conversations, None)
      else
        var c := conversations[conversationId];
        var receiverId := OtherParticipant(c.participants, m.senderId);
        var c' := c.(lastMessage := m.text, lastMessageTimestamp := m.timestamp, lastMessageBy := m.senderId);
        TriggerOutcome(conversations[conversationId := c'], receiverId)
  }

  /**
   * A redelivered event (the same message for the same conversation) writes
   * nothing new and names the same receiver.
   */
  lemma OnMessageCreatedTwice(conversations: map<string, TriggerConversation>, conversationId: string,
                              snapshot: Option<MessageSnapshot>)
    ensures var once := OnMessageCreated(conversations, conversationId, snapshot);
            var twice := OnMessageCreated(once.conversations, conversationId, snapshot);
            twice == once
  {
  }
}

=== FILE: json.dfy ===
/**
 * JavaScript values as the migration script and the web client see them:
 * plain objects with ordered keys, arrays, strings, numbers (integers here),
 * booleans, dates, `null` and `undefined`; with JavaScript's truthiness,
 * its `||` and property access.
 */
module Json {
  import opened Prelude

  datatype Value =
    | Undefined
    | Null
    | Bool(b: bool)
    | Num(n: int)
    | Str(s: string)
    | Arr(items: seq<Value>)
    | Obj(fields: seq<Field>)
    | Date(time: int)

  /** One own property of an object. */
  datatype Field = Field(key: string, value: Value)

  /** A plain object: its own properties in insertion order. */
  type Object = seq<Field>

  /** `Object.keys(o)`. */
  function Keys(o: Object): (r: seq<string>)
    ensures |r| == |o| && forall i :: 0 <= i < |o| ==> r[i] == o[i].key
  {
    if |o| == 0 then []
    else
      assert forall i :: 1 <= i < |o| ==> o[i] == o[1..][i - 1];
      [o[0].key] + Keys(o[1..])
  }

  predicate HasKey(o: Object, k: string) {
    exists i :: 0 <= i < |o| && o[i].key == k
  }

  /** `o[k]`: the value of the first property named `k`, or `undefined`. */
  function Get(o: Object, k: string): (r: Value)
    ensures !HasKey(o, k) ==> r == Undefined
  {
    if |o| == 0 then Undefined
    else if o[0].key == k then o[0].value
    else
      assert forall j :: 1 <= j < |o| ==> o[j] == o[1..][j - 1];
      Get(o[1..], k)
  }

  /** The first property named `k` is the one `Get` reads. */
  lemma {:induction false} GetFirst(o: Object, k: string, i: nat)
    requires i < |o| && o[i].key == k
    requires forall j :: 0 <= j < i ==> o[j].key != k
    ensures Get(o, k) == o[i].value
    decreases i
  {
    if i > 0 {
      GetFirst(o[1..], k, i - 1);
    }
  }

  /** A present key is read at its first occurrence. */
  lemma {:induction false} GetFound(o: Object, k: string) returns (i: nat)
    requires HasKey(o, k)
    ensures i < |o| && o[i].key == k && Get(o, k) == o[i].value
    ensures forall j :: 0 <= j < i ==> o[j].key != k
    decreases |o|
  {
    if o[0].key == k {
      i := 0;
    } else {
      assert HasKey(o[1..], k) by {
        var n :| 0 <= n < |o| && o[n].key == k;
        assert o[1..][n - 1] == o[n];
      }
      var i' := GetFound(o[1..], k);
      i := i' + 1;
      assert forall j :: 1 <= j < |o| ==> o[j] == o[1..][j - 1];
    }
  }

  /**
   * `o[k] = v`: an existing property keeps its position and takes the new
   * value; a new one is appended.
   */
  function Set(o: Object, k: string, v: Value): (r: Object)
    ensures Get(r, k) == v
    ensures forall k' :: k' != k ==> Get(r, k') == Get(o, k')
    decreases |o|
  {
    if |o| == 0 then [Field(k, v)]
    else if o[0].key == k then
      var r := [Field(k, v)] + o[1..];
      assert r[1..] == o[1..];
      r
    else
      var rest := Set(o[1..], k, v);
      var r := [o[0]] + rest;
      assert r[1..] == rest;
      r
  }

  /** Assignment keeps the key order and appends the key only when it is new. */
  lemma {:induction false} SetKeys(o: Object, k: string, v: Value)
    ensures Keys(Set(o, k, v)) == if HasKey(o, k) then Keys(o) else Keys(o) + [k]
    decreases |o|
  {
    if |o| > 0 {
      var r := Set(o, k, v);
      assert HasKey(o, k) <==> o[0].key == k || HasKey(o[1..], k) by {
        assert forall j :: 1 <= j < |o| ==> o[j] == o[1..][j - 1];
      }
      if o[0].key != k {
        SetKeys(o[1..], k, v);
        assert r[1..] == Set(o[1..], k, v);
      } else {
        assert r[1..] == o[1..];
      }
    }
  }

  /** The values `if (v)` rejects: `undefined`, `null`, `false`, `0` and `""` (NaN and -0 are not modelled). */
  predicate Falsy(v: Value) {
    v == Undefined || v == Null || v == Bool(false) || v == Num(0) || v == Str("")
  }

  /** `a || b`. */
  function Or(a: Value, b: Value): Value {
    if Falsy(a) then b else a
  }

  /** A key that arrays and strings answer themselves: `length` or a run of decimal digits. */
  predicate IndexLike(k: string) {
    k == "length" || (|k| > 0 && Digits(k))
  }

  predicate Digits(s: string) {
    |s| == 0 || ('0' <= s[0] <= '9' && Digits(s[1..]))
  }

  /**
   * `v.k` for a key that is neither an array index nor `length`: `None`
   * stands for the TypeError of reading a property of `null` or
   * `undefined`; other non-objects have no such property.
   */
  function Member(v: Value, k: string): (r: Option<Value>)
    requires !IndexLike(k)
    ensures r.None? <==> v == Null || v == Undefined
    ensures v.Obj? ==> r == Some(Get(v.fields, k))
    ensures !v.Obj? && r.Some? ==> r.value == Undefined
  {
    match v
    case Undefined => None
    case Null => None
    case Obj(fs) => Some(Get(fs, k))
    case _ => Some(Undefined)
  }
}

=== FILE: listings.dfy ===
/**
 * The listing routes of the REST server (server/index.js, routes 1 to 4):
 * create, query active listings with an optional category and a sort
 * order, fetch one, delete one.
 */
module Listings {
  import opened Prelude
  import opened Seqs
  import opened Records

  /** The text fields of the multipart form of `POST /api/listings`; `price` already converted to a number. */
  datatype ListingForm = ListingForm(
    title: string,
    description: string,
    price: int,
    category: string,
    condition: string,
    sellerId: string,
    sellerName: string,
    sellerPhoto: string)

  /** The college every listing created by the server is tagged with. */
  const CollegeDomain := "vjcet.org"

  predicate ListingIdUnused(db: Db, id: Id) {
    forall i :: 0 <= i < |db.listings| ==> db.listings[i].id != id
  }

  /**
   * `POST /api/listings`: stores a new active listing with the uploaded
   * image URLs, stamped `now`. The server never sets an expiry date.
   */
  function CreateListing(db: Db, form: ListingForm, imageUrls: seq<string>, now: int): (r: Step<Listing>)
    requires Valid(db)
    ensures Valid(r.db)
    ensures r.db.conversations == db.conversations && r.db.messages == db.messages && r.db.users == db.users
    ensures r.response.Created?
    ensures var l := r.response.value;
            && r.db.listings == db.listings + [l]
            && ListingIdUnused(db, l.id)
            && l.title == form.title && l.description == form.description && l.price == form.price
            && l.category == form.category && l.condition == form.condition
            && l.sellerId == form.sellerId && l.sellerName == form.sellerName && l.sellerPhoto == form.sellerPhoto
            && l.images == imageUrls
            && l.collegeDomain == CollegeDomain && l.status == Active && l.createdAt == now
            && l.expiresAt == None
  {
    var l := Listing(db.nextId, form.title, form.description, form.price, form.category, form.condition,
                     form.sellerId, form.sellerName, form.sellerPhoto, imageUrls, CollegeDomain, Active, now, None);
    Step(db.(listings := db.listings + [l], nextId := db.nextId + 1), Created(l))
  }

  /** The store-side filter of the listing query; an empty category means no category was given. */
  predicate Selected(l: Listing, category: string) {
    l.status == Active && (category == "" || l.category == category)
  }

  function Selection(ls: seq<Listing>, category: string): (r: seq<Listing>)
    ensures forall l :: multiset(r)[l] == if Selected(l, category) then multiset(ls)[l] else 0
  {
    FilterCount((l: Listing) => Selected(l, category), ls);
    Filter((l: Listing) => Selected(l, category), ls)
  }

  /**
   * `GET /api/listings?category=&sort=`: the active listings (of the
   * category, when one is given) sorted by price ascending for `price_low`,
   * by price descending for `price_high`, and newest first otherwise.
   */
  function ListListings(db: Db, category: string, sort: string): (r: seq<Listing>)
    ensures forall l :: multiset(r)[l] == if Selected(l, category) then multiset(db.listings)[l] else 0
    ensures sort == "price_low" ==> forall i, j :: 0 <= i < j < |r| ==> r[i].price <= r[j].price
    ensures sort == "price_high" ==> forall i, j :: 0 <= i < j < |r| ==> r[i].price >= r[j].price
    ensures sort != "price_low" && sort != "price_high" ==>
              forall i, j :: 0 <= i < j < |r| ==> r[i].createdAt >= r[j].createdAt
  {
    var selected := Selection(db.listings, category);
    if sort == "price_low" then SortBy(selected, ListingPrice, Ascending)
    else if sort == "price_high" then SortBy(selected, ListingPrice, Descending)
    else SortBy(selected, ListingCreated, Descending)
  }

  /** `GET /api/listings/:id`: the stored listing with that id, or 404. */
  function GetListing(db: Db, id: Id): (r: Response<Listing>)
    ensures r.Ok? || r.NotFound?
    ensures r.NotFound? <==> ListingIdUnused(db, id)
    ensures r.Ok? ==> r.value in db.listings && r.value.id == id
  {
    match FindListing(db.listings, id)
    case Some(l) => Ok(l)
    case None => NotFound
  }

  /**
   * `DELETE /api/listings/:id`: removes the listing with that id, if any,
   * and always reports success; no ownership check is made.
   */
  function DeleteListing(db: Db, id: Id): (r: Step<string>)
    requires Valid(db)
    ensures Valid(r.db)
    ensures r.db.conversations == db.conversations && r.db.messages == db.messages && r.db.users == db.users
    ensures r.response == Ok("Deleted successfully")
    ensures ListingIdUnused(r.db, id)
    ensures forall l: Listing :: l.id != id ==> multiset(r.db.listings)[l] == multiset(db.listings)[l]
    ensures IsSubsequence(r.db.listings, db.listings)
  {
    var p := (l: Listing) => l.id != id;
    FilterCount(p, db.listings);
    FilterIsSubsequence(p, db.listings);
    var kept := Filter(p, db.listings);
    KeptIdsValid(db, kept);
    Step(db.(listings := kept), Ok("Deleted successfully"))
  }

  /** Any sequence whose elements occur at most as often as in the store keeps the store's id facts. */
  lemma KeptIdsValid(db: Db, kept: seq<Listing>)
    requires Valid(db)
    requires multiset(kept) <= multiset(db.listings)
    ensures Valid(db.(listings := kept))
  {
    forall i | 0 <= i < |kept|
      ensures kept[i].id < db.nextId
    {
      assert kept[i] in multiset(db.listings);
    }
    forall i, j | 0 <= i < j < |kept|
      ensures kept[i].id != kept[j].id
    {
      KeptIdsDistinct(db.listings, kept, i, j);
    }
  }

  lemma KeptIdsDistinct(ls: seq<Listing>, kept: seq<Listing>, i: nat, j: nat)
    requires forall a, b :: 0 <= a < b < |ls| ==> ls[a].id != ls[b].id
    requires multiset(kept) <= multiset(ls)
    requires i < j < |kept|
    ensures kept[i].id != kept[j].id
  {
    assert kept[i] in multiset(ls);
    var a :| 0 <= a < |ls| && ls[a] == kept[i];
    assert kept[j] in multiset(ls);
    var b :| 0 <= b < |ls| && ls[b] == kept[j];
    OccursOnce(ls, a);
    assert kept == kept[..j] + [kept[j]] + kept[j + 1..];
    assert kept[i] in multiset(kept[..j]) by {
      assert kept[..j][i] == kept[i];
    }
    assert kept[i] != kept[j];
  }

  /** A listing at position `a` of a store with distinct ids occurs there exactly once. */
  lemma OccursOnce(ls: seq<Listing>, a: nat)
    requires a < |ls|
    requires forall i, j :: 0 <= i < j < |ls| ==> ls[i].id != ls[j].id
    ensures multiset(ls)[ls[a]] == 1
  {
    var x := ls[a];
    var front, back := ls[..a], ls[a + 1..];
    assert ls == front + [x] + back;
    assert forall b :: 0 <= b < |front| ==> front[b].id != x.id;
    assert forall b :: 0 <= b < |back| ==> back[b] == ls[a + 1 + b];
    assert forall b :: 0 <= b < |back| ==> back[b].id != x.id;
  }

  /** The listing with id `id`, if the store holds one. */
  function FindListing(ls: seq<Listing>, id: Id): (r: Option<Listing>)
    ensures r.None? <==> forall i :: 0 <= i < |ls| ==> ls[i].id != id
    ensures r.Some? ==> r.value in ls && r.value.id == id
  {
    if |ls| == 0 then None
    else if ls[0].id == id then Some(ls[0])
    else
      var r := FindListing(ls[1..], id);
      assert forall i :: 1 <= i < |ls| ==> ls[i] == ls[1..][i - 1];
      r
  }
}

=== FILE: migration.dfy ===
/**
 * The per-record transforms of the one-off MongoDB-to-Firestore migration
 * (server/migrate_mongo_to_firebase.js): each source document becomes the
 * id and data of one Firestore write, with `undefined` replaced by `null`
 * and some fields defaulted through `||`.
 */
module Migration {
  import opened Prelude
  import opened Json
  import opened Seqs

  /** A MongoDB document: `_id.toString()` and its fields. */
  datatype MongoDoc = MongoDoc(id: string, fields: Object)

  /** One `collection.doc(docId).set(data)`. */
  datatype Write = Write(docId: string, data: Object)

  predicate NoUndefined(o: Object) {
    forall i :: 0 <= i < |o| ==> o[i].value != Undefined
  }

  /** `sanitize`: the same keys in the same order, every `undefined` value replaced by `null`. */
  function Sanitize(o: Object): (r: Object)
    ensures Keys(r) == Keys(o)
    ensures forall i :: 0 <= i < |o| ==> r[i].value == if o[i].value == Undefined then Null else o[i].value
    ensures NoUndefined(r)
  {
    seq(|o|, i requires 0 <= i < |o| => Field(o[i].key, if o[i].value == Undefined then Null else o[i].value))
  }

  /** A sanitized object is left as it is by a second `sanitize`. */
  lemma SanitizeIdempotent(o: Object)
    ensures Sanitize(Sanitize(o)) == Sanitize(o)
  {
    var once := Sanitize(o);
    assert forall i :: 0 <= i < |once| ==> Sanitize(once)[i] == once[i];
  }

  /** What `sanitize` stores for a value. */
  function Sanitized(v: Value): Value {
    if v == Undefined then Null else v
  }

  /** Reading a present key of a sanitized object gives `null` where the original held `undefined`. */
  lemma GetSanitize(o: Object, k: string)
    ensures Get(Sanitize(o), k) == if HasKey(o, k) then Sanitized(Get(o, k)) else Undefined
  {
    var r := Sanitize(o);
    assert |r| == |Keys(r)| == |o|;
    assert forall i :: 0 <= i < |o| ==> r[i].key == Keys(r)[i] == o[i].key;
    if HasKey(o, k) {
      var i := GetFound(o, k);
      GetFirst(r, k, i);
    } else {
      assert !HasKey(r, k);
    }
  }

  /** The first property named `k` of a sanitized object is the sanitized first property named `k` of the original. */
  lemma GetSanitizeAt(o: Object, k: string, i: nat)
    requires i < |o| && o[i].key == k
    requires forall j :: 0 <= j < i ==> o[j].key != k
    ensures Get(Sanitize(o), k) == Sanitized(o[i].value)
  {
    var r := Sanitize(o);
    assert forall j :: 0 <= j < |o| ==> r[j].key == Keys(r)[j] == o[j].key;
    GetFirst(r, k, i);
  }

  /** `doc(id)` accepts a non-empty string; anything else throws and the record is skipped. */
  function DocumentId(v: Value): (r: Option<string>)
    ensures r.Some? <==> v.Str? && v.s != ""
    ensures r.Some? ==> v == Str(r.value)
  {
    if v.Str? && v.s != "" then Some(v.s) else None
  }

  /** How one field of a migrated document is filled from the source document. */
  datatype Fallback =
    | Copy                 // `doc.k`
    | Default(value: Value) // `doc.k || value`
    | Now                  // `doc.k || new Date()`

  /** One field of a migrated document. */
  datatype Rule = Rule(key: string, fallback: Fallback)

  /** The shape of a migrated document: its fields in the order the script lists them. */
  type Shape = seq<Rule>

  function ShapeKeys(shape: Shape): (r: seq<string>)
    ensures |r| == |shape| && forall i :: 0 <= i < |shape| ==> r[i] == shape[i].key
  {
    seq(|shape|, i requires 0 <= i < |shape| => shape[i].key)
  }

  predicate DistinctRules(shape: Shape) {
    forall i, j :: 0 <= i < j < |shape| ==> shape[i].key != shape[j].key
  }

  /** The value a rule stores for source value `v`, before `sanitize`. */
  function Fill(v: Value, fallback: Fallback, now: int): (r: Value)
    ensures fallback.Copy? ==> r == v
    ensures fallback.Default? ==> r == if Falsy(v) then fallback.value else v
    ensures fallback.Now? ==> r == if Falsy(v) then Date(now) else v
  {
    match fallback
    case Copy => v
    case Default(d) => Or(v, d)
    case Now => Or(v, Date(now))
  }

  /** The object literal the script builds from source fields `src`. */
  function Project(src: Object, shape: Shape, now: int): (r: Object)
    ensures Keys(r) == ShapeKeys(shape)
  {
    seq(|shape|, i requires 0 <= i < |shape| => Field(shape[i].key, Fill(Get(src, shape[i].key), shape[i].fallback, now)))
  }

  /**
   * Reading a field of the written document gives the source value with
   * its fallback applied: the default when the source value is falsy, and
   * `null` in place of a missing copied field.
   */
  lemma ReadBack(src: Object, shape: Shape, now: int, i: nat)
    requires DistinctRules(shape) && i < |shape|
    ensures var v := Get(src, shape[i].key);
            Get(Sanitize(Project(src, shape, now)), shape[i].key) ==
              match shape[i].fallback
              case Copy => Sanitized(v)
              case Default(d) => if Falsy(v) then Sanitized(d) else v
              case Now => if Falsy(v) then Date(now) else v
  {
    var fs := Project(src, shape, now);
    assert forall j :: 0 <= j < |fs| ==> fs[j].key == Keys(fs)[j] == shape[j].key;
    GetSanitizeAt(fs, shape[i].key, i);
  }

  const UserShape: Shape := [
    Rule("uid", Copy), Rule("email", Copy), Rule("displayName", Copy),
    Rule("photoURL", Default(Str(""))), Rule("collegeDomain", Copy), Rule("createdAt", Now)]

  /** The user document: keyed by its uid, photo defaulted to `''`, creation time to `now`. */
  function MigrateUser(user: MongoDoc, now: int): (r: Option<Write>)
    ensures r.Some? <==> DocumentId(Get(user.fields, "uid")).Some?
    ensures r.Some? ==> && Str(r.value.docId) == Get(user.fields, "uid")
                        && Keys(r.value.data) == ShapeKeys(UserShape)
                        && NoUndefined(r.value.data)
  {
    match DocumentId(Get(user.fields, "uid"))
    case None => None
    case Some(id) => Some(Write(id, Sanitize(Project(user.fields, UserShape, now))))
  }

  const ListingShape: Shape := [
    Rule("title", Copy), Rule("description", Copy), Rule("price", Copy), Rule("category", Copy),
    Rule("condition", Copy), Rule("images", Default(Arr([]))), Rule("sellerId", Copy), Rule("sellerName", Copy),
    Rule("sellerPhoto", Default(Str(""))), Rule("collegeDomain", Default(Str("vjcet.org"))),
    Rule("status", Default(Str("active"))), Rule("createdAt", Now)]

  /** The listing document, kept under the MongoDB id. */
  function MigrateListing(item: MongoDoc, now: int): (r: Write)
    ensures r.docId == item.id
    ensures Keys(r.data) == ShapeKeys(ListingShape)
    ensures NoUndefined(r.data)
  {
    Write(item.id, Sanitize(Project(item.fields, ListingShape, now)))
  }

  /** One participant snapshot; `None` when reading its properties throws (a `null` entry). */
  function MigrateParticipant(p: Value): (r: Option<Value>)
    ensures r.None? <==> p == Null || p == Undefined
    ensures r.Some? ==> r.value.Obj? && Keys(r.value.fields) == ["uid", "displayName", "photoURL"]
    ensures r.Some? ==> ParticipantRead(p, r.value.fields, "uid", Str(""))
    ensures r.Some? ==> ParticipantRead(p, r.value.fields, "displayName", Str("Unknown"))
    ensures r.Some? ==> ParticipantRead(p, r.value.fields, "photoURL", Str(""))
  {
    match Member(p, "uid")
    case None => None
    case Some(uid) =>
      var fs := [
        Field("uid", Or(uid, Str(""))),
        Field("displayName", Or(Member(p, "displayName").value, Str("Unknown"))),
        Field("photoURL", Or(Member(p, "photoURL").value, Str("")))];
      GetFirst(fs, "uid", 0);
      GetFirst(fs, "displayName", 1);
      GetFirst(fs, "photoURL", 2);
      Some(Obj(fs))
  }

  /**
   * Property `k` of a migrated participant: the entry's own value when it is
   * an object holding a truthy one, and `fallback` otherwise (strings,
   * numbers and the like have no such property).
   */
  predicate ParticipantRead(p: Value, migrated: Object, k: string, fallback: Value) {
    var own := if p.Obj? then Get(p.fields, k) else Undefined;
    Get(migrated, k) == if Falsy(own) then fallback else own
  }

  /** `participants.map(...)`: `None` as soon as one entry throws. */
  function MigrateParticipants(ps: seq<Value>): (r: Option<seq<Value>>)
    ensures r.None? <==> exists i :: 0 <= i < |ps| && (ps[i] == Null || ps[i] == Undefined)
    ensures r.Some? ==> |r.value| == |ps| && forall i :: 0 <= i < |ps| ==> Some(r.value[i]) == MigrateParticipant(ps[i])
  {
    MapAll(MigrateParticipant, ps)
  }

  /** The conversation fields after `participants`. */
  const ConversationShape: Shape := [
    Rule("listingId", Default(Str(""))), Rule("listingTitle", Default(Str(""))),
    Rule("lastMessage", Default(Str(""))), Rule("lastMessageTimestamp", Now), Rule("lastMessageBy", Default(Str("")))]

  /**
   * The conversation document, kept under the MongoDB id. A conversation
   * without a participants array is skipped, as is one whose participant
   * list throws.
   */
  function MigrateConversation(conv: MongoDoc, now: int): (r: Option<Write>)
    ensures r.Some? <==> Get(conv.fields, "participants").Arr? && MigrateParticipants(Get(conv.fields, "participants").items).Some?
    ensures r.Some? ==> && r.value.docId == conv.id
                        && Keys(r.value.data) == ["participants"] + ShapeKeys(ConversationShape)
                        && NoUndefined(r.value.data)
  {
    var ps := Get(conv.fields, "participants");
    if !ps.Arr? then None
    else
      match MigrateParticipants(ps.items)
      case None => None
      case Some(migrated) =>
        var fs := [Field("participants", Arr(migrated))] + Project(conv.fields, ConversationShape, now);
        assert Keys(fs) == ["participants"] + ShapeKeys(ConversationShape);
        Some(Write(conv.id, Sanitize(fs)))
  }

  const MessageShape: Shape := [
    Rule("conversationId", Copy), Rule("senderId", Copy), Rule("text", Copy), Rule("timestamp", Now)]

  /** The message document, kept under the MongoDB id. */
  function MigrateMessage(msg: MongoDoc, now: int): (r: Write)
    ensures r.docId == msg.id
    ensures Keys(r.data) == ShapeKeys(MessageShape)
    ensures NoUndefined(r.data)
  {
    Write(msg.id, Sanitize(Project(msg.fields, MessageShape, now)))
  }

  // No document shape of the migration names a field twice.

  lemma UserShapeDistinct()
    ensures DistinctRules(UserShape)
  {
  }

  lemma ListingShapeDistinct()
    ensures DistinctRules(ListingShape)
  {
  }

  lemma ConversationShapeDistinct()
    ensures DistinctRules(ConversationShape)
  {
  }

  lemma MessageShapeDistinct()
    ensures DistinctRules(MessageShape)
  {
  }

  /** Reading the written message back: its three text fields are copied (`null` where missing), its timestamp defaulted to `now` when falsy. */
  lemma MigrateMessageReadBack(msg: MongoDoc, now: int)
    ensures var m, data := msg.fields, MigrateMessage(msg, now).data;
            && Get(data, "conversationId") == Sanitized(Get(m, "conversationId"))
            && Get(data, "senderId") == Sanitized(Get(m, "senderId"))
            && Get(data, "text") == Sanitized(Get(m, "text"))
            && Get(data, "timestamp") == (if Falsy(Get(m, "timestamp")) then Date(now) else Get(m, "timestamp"))
  {
    MessageShapeDistinct();
    ReadBack(msg.fields, MessageShape, now, 0);
    ReadBack(msg.fields, MessageShape, now, 1);
    ReadBack(msg.fields, MessageShape, now, 2);
    ReadBack(msg.fields, MessageShape, now, 3);
  }

  /** A migrated user record keeps a truthy creation time and otherwise takes the migration's clock. */
  lemma MigrateUserReadBack(user: MongoDoc, now: int)
    requires MigrateUser(user, now).Some?
    ensures var u, data := user.fields, MigrateUser(user, now).value.data;
            && Get(data, "uid") == Get(u, "uid")
            && Get(data, "email") == Sanitized(Get(u, "email"))
            && Get(data, "photoURL") == (if Falsy(Get(u, "photoURL")) then Str("") else Get(u, "photoURL"))
            && Get(data, "createdAt") == (if Falsy(Get(u, "createdAt")) then Date(now) else Get(u, "createdAt"))
  {
    UserShapeDistinct();
    ReadBack(user.fields, UserShape, now, 0);
    ReadBack(user.fields, UserShape, now, 1);
    ReadBack(user.fields, UserShape, now, 3);
    ReadBack(user.fields, UserShape, now, 5);
  }

  /** Reading the written listing back: text fields are copied (`null` where missing), the others defaulted when falsy. */
  lemma MigrateListingReadBack(item: MongoDoc, now: int)
    ensures var l, data := item.fields, MigrateListing(item, now).data;
            && Get(data, "title") == Sanitized(Get(l, "title"))
            && Get(data, "price") == Sanitized(Get(l, "price"))
            && Get(data, "images") == (if Falsy(Get(l, "images")) then Arr([]) else Get(l, "images"))
            && Get(data, "sellerPhoto") == (if Falsy(Get(l, "sellerPhoto")) then Str("") else Get(l, "sellerPhoto"))
            && Get(data, "collegeDomain") == (if Falsy(Get(l, "collegeDomain")) then Str("vjcet.org") else Get(l, "collegeDomain"))
            && Get(data, "status") == (if Falsy(Get(l, "status")) then Str("active") else Get(l, "status"))
            && Get(data, "createdAt") == (if Falsy(Get(l, "createdAt")) then Date(now) else Get(l, "createdAt"))
  {
    var l, data := item.fields, MigrateListing(item, now).data;
    ListingShapeAt();
    assert Get(data, "title") == Sanitized(Get(l, "title")) by {
      ListingReadBack(item, now, 0);
    }
    assert Get(data, "price") == Sanitized(Get(l, "price")) by {
      ListingReadBack(item, now, 2);
    }
    assert Get(data, "images") == (if Falsy(Get(l, "images")) then Arr([]) else Get(l, "images")) by {
      ListingReadBack(item, now, 5);
    }
    assert Get(data, "sellerPhoto") == (if Falsy(Get(l, "sellerPhoto")) then Str("") else Get(l, "sellerPhoto")) by {
      ListingReadBack(item, now, 8);
    }
    assert Get(data, "collegeDomain") == (if Falsy(Get(l, "collegeDomain")) then Str("vjcet.org") else Get(l, "collegeDomain")) by {
      ListingReadBack(item, now, 9);
    }
    assert Get(data, "status") == (if Falsy(Get(l, "status")) then Str("active") else Get(l, "status")) by {
      ListingReadBack(item, now, 10);
    }
    assert Get(data, "createdAt") == (if Falsy(Get(l, "createdAt")) then Date(now) else Get(l, "createdAt")) by {
      ListingReadBack(item, now, 11);
    }
  }

  lemma ListingShapeAt()
    ensures ListingShape[0] == Rule("title", Copy) && ListingShape[2] == Rule("price", Copy)
    ensures ListingShape[5] == Rule("images", Default(Arr([])))
    ensures ListingShape[8] == Rule("sellerPhoto", Default(Str("")))
    ensures ListingShape[9] == Rule("collegeDomain", Default(Str("vjcet.org")))
    ensures ListingShape[10] == Rule("status", Default(Str("active")))
    ensures ListingShape[11] == Rule("createdAt", Now)
  {
  }

  lemma ListingReadBack(item: MongoDoc, now: int, i: nat)
    requires i < |ListingShape|
    ensures var v := Get(item.fields, ListingShape[i].key);
            Get(MigrateListing(item, now).data, ListingShape[i].key) ==
              match ListingShape[i].fallback
              case Copy => Sanitized(v)
              case Default(d) => if Falsy(v) then Sanitized(d) else v
              case Now => if Falsy(v) then Date(now) else v
  {
    ListingShapeDistinct();
    ReadBack(item.fields, ListingShape, now, i);
  }

  /** Reading the written conversation back: the migrated participants, and each summary field defaulted when falsy. */
  lemma MigrateConversationReadBack(conv: MongoDoc, now: int)
    requires MigrateConversation(conv, now).Some?
    ensures var c, data := conv.fields, MigrateConversation(conv, now).value.data;
            && Get(data, "participants") == Arr(MigrateParticipants(Get(c, "participants").items).value)
            && Get(data, "listingId") == (if Falsy(Get(c, "listingId")) then Str("") else Get(c, "listingId"))
            && Get(data, "lastMessage") == (if Falsy(Get(c, "lastMessage")) then Str("") else Get(c, "lastMessage"))
            && Get(data, "lastMessageTimestamp") ==
                 (if Falsy(Get(c, "lastMessageTimestamp")) then Date(now) else Get(c, "lastMessageTimestamp"))
  {
    var migrated := MigrateParticipants(Get(conv.fields, "participants").items).value;
    var fs := [Field("participants", Arr(migrated))] + Project(conv.fields, ConversationShape, now);
    assert fs[0].key == "participants";
    GetSanitizeAt(fs, "participants", 0);
    ConversationFieldAt(conv.fields, migrated, now, 0);
    ConversationFieldAt(conv.fields, migrated, now, 2);
    ConversationFieldAt(conv.fields, migrated, now, 3);
  }

  /** A summary field of the conversation document sits after `participants` and is read as its rule says. */
  lemma ConversationFieldAt(c: Object, migrated: seq<Value>, now: int, i: nat)
    requires i < |ConversationShape|
    ensures var fs := [Field("participants", Arr(migrated))] + Project(c, ConversationShape, now);
            var rule := ConversationShape[i];
            Get(Sanitize(fs), rule.key) == Sanitized(Fill(Get(c, rule.key), rule.fallback, now))
  {
    var rest := Project(c, ConversationShape, now);
    var fs := [Field("participants", Arr(migrated))] + rest;
    assert forall j :: 1 <= j < |fs| ==> fs[j] == rest[j - 1];
    assert forall j :: 0 <= j < |rest| ==> rest[j].key == Keys(rest)[j] == ConversationShape[j].key;
    ConversationShapeDistinct();
    GetSanitizeAt(fs, ConversationShape[i].key, i + 1);
  }
}

=== FILE: prelude.dfy ===
/** Small shared vocabulary: an optional value. */
module Prelude {

  /** A value that may be absent (a missing document, an unset field). */
  datatype Option<+T> = None | Some(value: T)
}

=== FILE: records.dfy ===
/**
 * The documents the marketplace keeps in its document store, and the store
 * itself: one sequence per collection (in the order a full read returns
 * them) plus the source of fresh document ids.
 */
module Records {
  import opened Prelude

  /** A document id. The store hands out fresh ones from a counter. */
  type Id = nat

  /** An item for sale. `expiresAt` is only ever set by tools outside the server. */
  datatype Listing = Listing(
    id: Id,
    title: string,
    description: string,
    price: int,
    category: string,
    condition: string,
    sellerId: string,
    sellerName: string,
    sellerPhoto: string,
    images: seq<string>,
    collegeDomain: string,
    status: string,
    createdAt: int,
    expiresAt: Option<int>)

  /** A denormalised snapshot of one party of a conversation. */
  datatype Participant = Participant(uid: string, displayName: string, photoURL: string)

  /** A two-party chat thread with the listing it was last opened for and a summary of its last message. */
  datatype Conversation = Conversation(
    id: Id,
    participants: seq<Participant>,
    listingId: Id,
    listingTitle: string,
    lastMessage: string,
    lastMessageTimestamp: int,
    lastMessageBy: string)

  datatype Message = Message(id: Id, conversationId: Id, senderId: string, text: string, timestamp: int)

  /** A user profile; the store keys it by `uid`. */
  datatype User = User(uid: string, email: string, displayName: string, photoURL: string, collegeDomain: string, createdAt: int)

  datatype Db = Db(
    listings: seq<Listing>,
    conversations: seq<Conversation>,
    messages: seq<Message>,
    users: map<string, User>,
    nextId: Id)

  /** Status values the server and the expiry job write. */
  const Active := "active"
  const Expired := "expired"

  /**
   * Every document id in a collection was handed out before `nextId` and
   * occurs once, and every user document is stored under its own uid.
   */
  predicate Valid(db: Db) {
    && (forall i :: 0 <= i < |db.listings| ==> db.listings[i].id < db.nextId)
    && (forall i, j :: 0 <= i < j < |db.listings| ==> db.listings[i].id != db.listings[j].id)
    && (forall i :: 0 <= i < |db.conversations| ==> db.conversations[i].id < db.nextId)
    && (forall i, j :: 0 <= i < j < |db.conversations| ==> db.conversations[i].id != db.conversations[j].id)
    && (forall i :: 0 <= i < |db.messages| ==> db.messages[i].id < db.nextId)
    && (forall i, j :: 0 <= i < j < |db.messages| ==> db.messages[i].id != db.messages[j].id)
    && (forall uid :: uid in db.users ==> db.users[uid].uid == uid)
  }

  /** Some participant of `c` has uid `uid`. */
  predicate Involves(c: Conversation, uid: string) {
    exists i :: 0 <= i < |c.participants| && c.participants[i].uid == uid
  }

  /** The sort keys the handlers use. */
  function ConversationTime(c: Conversation): int { c.lastMessageTimestamp }
  function MessageTime(m: Message): int { m.timestamp }
  function ListingPrice(l: Listing): int { l.price }
  function ListingCreated(l: Listing): int { l.createdAt }

  /** An HTTP reply: 200 with a body, 201 with the created document, 404 or 500. */
  datatype Response<T> = Ok(value: T) | Created(value: T) | NotFound | ServerError

  /** The store after a handler ran, and what the handler answered. */
  datatype Step<T> = Step(db: Db, response: Response<T>)
}

=== FILE: seqs.dfy ===
/**
 * Sequence operations shared by every in-memory query of the model:
 * `Array.prototype.filter` (order-preserving selection) and the stable
 * `Array.prototype.sort` with a numeric key, ascending or descending.
 */
module Seqs {
  import opened Prelude

  /** `a` can be obtained from `b` by deleting elements (order is kept). */
  predicate IsSubsequence<T(==,!new)>(a: seq<T>, b: seq<T>)
    decreases |b|
  {
    |a| == 0 || (|b| > 0 && if a[0] == b[0] then IsSubsequence(a[1..], b[1..]) else IsSubsequence(a, b[1..]))
  }

  /** The elements of `s` that satisfy `p`, in their original order. */
  function Filter<T(==,!new)>(p: T -> bool, s: seq<T>): (r: seq<T>)
    ensures |r| <= |s|
    ensures forall i :: 0 <= i < |r| ==> p(r[i])
  {
    if |s| == 0 then []
    else
      var rest := Filter(p, s[1..]);
      if p(s[0]) then [s[0]] + rest else rest
  }

  /** Each value occurs in the filter as often as in the input when it passes, and never otherwise. */
  lemma {:induction false} FilterCount<T(!new)>(p: T -> bool, s: seq<T>)
    ensures forall x :: multiset(Filter(p, s))[x] == if p(x) then multiset(s)[x] else 0
    decreases |s|
  {
    if |s| > 0 {
      FilterCount(p, s[1..]);
      assert s == [s[0]] + s[1..];
    }
  }

  lemma {:induction false} FilterIsSubsequence<T(!new)>(p: T -> bool, s: seq<T>)
    ensures IsSubsequence(Filter(p, s), s)
    decreases |s|
  {
    if |s| > 0 {
      FilterIsSubsequence(p, s[1..]);
      var rest := Filter(p, s[1..]);
      if p(s[0]) {
        assert Filter(p, s) == [s[0]] + rest;
        assert ([s[0]] + rest)[1..] == rest;
      } else {
        assert Filter(p, s) == rest;
        SubsequenceOfTail(rest, s);
      }
    }
  }

  /** A subsequence of the tail of `b` is a subsequence of `b`. */
  lemma {:induction false} SubsequenceOfTail<T(!new)>(a: seq<T>, b: seq<T>)
    requires |b| > 0
    requires IsSubsequence(a, b[1..])
    ensures IsSubsequence(a, b)
    decreases |b|, 0
  {
    if |a| > 0 && a[0] == b[0] {
      DropFirst(a, b[1..]);
    }
  }

  /** Removing the first element of a subsequence leaves a subsequence. */
  lemma {:induction false} DropFirst<T(!new)>(a: seq<T>, c: seq<T>)
    requires |a| > 0
    requires IsSubsequence(a, c)
    ensures IsSubsequence(a[1..], c)
    decreases |c|, 1
  {
    if a[0] == c[0] {
      SubsequenceOfTail(a[1..], c);
    } else {
      DropFirst(a, c[1..]);
      SubsequenceOfTail(a[1..], c);
    }
  }

  lemma {:induction false} FilterAppend<T(!new)>(p: T -> bool, a: seq<T>, b: seq<T>)
    ensures Filter(p, a + b) == Filter(p, a) + Filter(p, b)
    decreases |a|
  {
    if |a| > 0 {
      assert (a + b)[1..] == a[1..] + b;
      FilterAppend(p, a[1..], b);
    } else {
      assert a + b == b;
    }
  }

  /** Filtering a second time with the same predicate changes nothing. */
  lemma {:induction false} FilterIdempotent<T(!new)>(p: T -> bool, s: seq<T>)
    ensures Filter(p, Filter(p, s)) == Filter(p, s)
  {
    FilterKeepsAll(p, Filter(p, s));
  }

  /** When every element passes, the filter is the identity. */
  lemma {:induction false} FilterKeepsAll<T(!new)>(p: T -> bool, s: seq<T>)
    requires forall i :: 0 <= i < |s| ==> p(s[i])
    ensures Filter(p, s) == s
    decreases |s|
  {
    if |s| > 0 {
      FilterKeepsAll(p, s[1..]);
    }
  }

  /** Filtering with two predicates that agree everywhere gives the same result. */
  lemma {:induction false} FilterSame<T(!new)>(p: T -> bool, q: T -> bool, s: seq<T>)
    requires forall x :: p(x) == q(x)
    ensures Filter(p, s) == Filter(q, s)
    decreases |s|
  {
    if |s| > 0 {
      FilterSame(p, q, s[1..]);
    }
  }

  /**
   * `s.map(f)` where `f` may throw (`None`): the mapped sequence, or `None`
   * as soon as one element throws.
   */
  function MapAll<A(!new), B>(f: A -> Option<B>, s: seq<A>): (r: Option<seq<B>>)
    ensures r.None? <==> exists i :: 0 <= i < |s| && f(s[i]).None?
    ensures r.Some? ==> |r.value| == |s| && forall i :: 0 <= i < |s| ==> Some(r.value[i]) == f(s[i])
  {
    if |s| == 0 then Some([])
    else
      match f(s[0])
      case None => None
      case Some(y) =>
        var rest := MapAll(f, s[1..]);
        assert forall i :: 1 <= i < |s| ==> s[i] == s[1..][i - 1];
        if rest.None? then None else Some([y] + rest.value)
  }

  /** Direction of a sort on a numeric key. */
  datatype Order = Ascending | Descending

  /** `a` may come before `b` in a sequence sorted in direction `o`. */
  predicate InOrder(o: Order, a: int, b: int) {
    match o
    case Ascending => a <= b
    case Descending => a >= b
  }

  predicate Sorted<T>(s: seq<T>, key: T -> int, o: Order) {
    forall i, j :: 0 <= i < j < |s| ==> InOrder(o, key(s[i]), key(s[j]))
  }

  /** The elements of `s` whose key is `k`, in their original order. */
  function WithKey<T(==,!new)>(s: seq<T>, key: T -> int, k: int): seq<T> {
    Filter(x => key(x) == k, s)
  }

  /** Places `x` in front of the first element it may precede. */
  function Insert<T(==,!new)>(x: T, s: seq<T>, key: T -> int, o: Order): (r: seq<T>)
    requires Sorted(s, key, o)
    ensures Sorted(r, key, o)
    ensures multiset(r) == multiset(s) + multiset{x}
    decreases |s|
  {
    if |s| == 0 then [x]
    else if InOrder(o, key(x), key(s[0])) then [x] + s
    else
      var rest := Insert(x, s[1..], key, o);
      assert s == [s[0]] + s[1..];
      InsertHeadBound(x, s, rest, key, o);
      ConsSorted(s[0], rest, key, o);
      [s[0]] + rest
  }

  /** Every element `Insert` leaves behind the head `s[0]` may follow it. */
  lemma InsertHeadBound<T>(x: T, s: seq<T>, rest: seq<T>, key: T -> int, o: Order)
    requires |s| > 0 && Sorted(s, key, o) && !InOrder(o, key(x), key(s[0]))
    requires multiset(rest) == multiset(s[1..]) + multiset{x}
    ensures forall i :: 0 <= i < |rest| ==> InOrder(o, key(s[0]), key(rest[i]))
  {
    forall i | 0 <= i < |rest|
      ensures InOrder(o, key(s[0]), key(rest[i]))
    {
      assert rest[i] in multiset(rest);
      if rest[i] != x {
        assert rest[i] in multiset(s[1..]);
        var j :| 0 <= j < |s[1..]| && s[1..][j] == rest[i];
        assert s[j + 1] == rest[i];
      }
    }
  }

  /** A sorted sequence stays sorted under a head that may precede each of its elements. */
  lemma ConsSorted<T>(h: T, t: seq<T>, key: T -> int, o: Order)
    requires Sorted(t, key, o)
    requires forall i :: 0 <= i < |t| ==> InOrder(o, key(h), key(t[i]))
    ensures Sorted([h] + t, key, o)
  {
    var r := [h] + t;
    forall i, j | 0 <= i < j < |r|
      ensures InOrder(o, key(r[i]), key(r[j]))
    {
      assert r[j] == t[j - 1];
      if i > 0 {
        assert r[i] == t[i - 1];
      }
    }
  }

  /** Stable sort of `s` by `key` in direction `o` (what the handlers' comparator sorts compute). */
  function SortBy<T(==,!new)>(s: seq<T>, key: T -> int, o: Order): (r: seq<T>)
    ensures Sorted(r, key, o)
    ensures multiset(r) == multiset(s)
    decreases |s|
  {
    if |s| == 0 then []
    else
      assert s == [s[0]] + s[1..];
      Insert(s[0], SortBy(s[1..], key, o), key, o)
  }

  lemma {:induction false} InsertWithKey<T(!new)>(x: T, s: seq<T>, key: T -> int, o: Order, k: int)
    requires Sorted(s, key, o)
    ensures WithKey(Insert(x, s, key, o), key, k) == (if key(x) == k then [x] else []) + WithKey(s, key, k)
    decreases |s|
  {
    if |s| == 0 {
      WithKeyCons(x, [], key, k);
    } else if InOrder(o, key(x), key(s[0])) {
      WithKeyCons(x, s, key, k);
    } else {
      InsertWithKey(x, s[1..], key, o, k);
      var rest := Insert(x, s[1..], key, o);
      assert Insert(x, s, key, o) == [s[0]] + rest;
      PastHead(x, s[0], rest, s[1..], key, k);
      assert [s[0]] + s[1..] == s;
    }
  }

  /** The step of `InsertWithKey` where `x` moves past a head `h` whose key differs from its own. */
  lemma PastHead<T(!new)>(x: T, h: T, rest: seq<T>, tail: seq<T>, key: T -> int, k: int)
    requires key(x) != key(h)
    requires WithKey(rest, key, k) == (if key(x) == k then [x] else []) + WithKey(tail, key, k)
    ensures WithKey([h] + rest, key, k) == (if key(x) == k then [x] else []) + WithKey([h] + tail, key, k)
  {
    WithKeyCons(h, rest, key, k);
    WithKeyCons(h, tail, key, k);
  }

  lemma WithKeyCons<T(!new)>(y: T, t: seq<T>, key: T -> int, k: int)
    ensures WithKey([y] + t, key, k) == (if key(y) == k then [y] else []) + WithKey(t, key, k)
  {
    assert ([y] + t)[0] == y;
    assert ([y] + t)[1..] == t;
  }

  /**
   * The sort is stable: the elements sharing any one key keep the relative
   * order they had in the input.
   */
  lemma {:induction false} SortByStable<T(!new)>(s: seq<T>, key: T -> int, o: Order, k: int)
    ensures WithKey(SortBy(s, key, o), key, k) == WithKey(s, key, k)
    decreases |s|
  {
    if |s| > 0 {
      SortByStable(s[1..], key, o, k);
      InsertWithKey(s[0], SortBy(s[1..], key, o), key, o, k);
    }
  }

  lemma {:induction false} WithKeyAppend<T(!new)>(a: seq<T>, b: seq<T>, key: T -> int, k: int)
    ensures WithKey(a + b, key, k) == WithKey(a, key, k) + WithKey(b, key, k)
    decreases |a|
  {
    if |a| == 0 {
      assert a + b == b;
    } else {
      var head := if key(a[0]) == k then [a[0]] else [];
      calc {
        WithKey(a + b, key, k);
        { assert a + b == [a[0]] + (a[1..] + b); }
        WithKey([a[0]] + (a[1..] + b), key, k);
        { WithKeyCons(a[0], a[1..] + b, key, k); }
        head + WithKey(a[1..] + b, key, k);
        { WithKeyAppend(a[1..], b, key, k); }
        head + (WithKey(a[1..], key, k) + WithKey(b, key, k));
        (head + WithKey(a[1..], key, k)) + WithKey(b, key, k);
        { WithKeyCons(a[0], a[1..], key, k); assert a == [a[0]] + a[1..]; }
        WithKey(a, key, k) + WithKey(b, key, k);
      }
    }
  }

  /** Sorting on a key that is the same for every element leaves the sequence as it is. */
  lemma SortByConstantKey<T(!new)>(s: seq<T>, key: T -> int, o: Order, k: int)
    requires forall x :: key(x) == k
    ensures SortBy(s, key, o) == s
  {
    var r := SortBy(s, key, o);
    SortByStable(s, key, o, k);
    FilterKeepsAll(x => key(x) == k, s);
    assert |multiset(r)| == |multiset(s)|;
    FilterKeepsAll(x => key(x) == k, r);
  }

  /** The last element with key `key(last)` is the last element itself. */
  lemma WithKeyLast<T(!new)>(s: seq<T>, key: T -> int)
    requires |s| > 0
    ensures var w := WithKey(s, key, key(s[|s| - 1])); |w| > 0 && w[|w| - 1] == s[|s| - 1]
  {
    var x := s[|s| - 1];
    assert s == s[..|s| - 1] + [x];
    WithKeyAppend(s[..|s| - 1], [x], key, key(x));
    WithKeyCons(x, [], key, key(x));
    assert [x] + [] == [x];
  }

  /** A sorted permutation `r` of `s` ends with an element carrying the greatest key of `s`. */
  lemma SortedLastKey<T(!new)>(s: seq<T>, r: seq<T>, key: T -> int)
    requires |s| > 0
    requires forall i :: 0 <= i < |s| ==> key(s[i]) <= key(s[|s| - 1])
    requires Sorted(r, key, Ascending) && multiset(r) == multiset(s)
    ensures |r| == |s| && key(r[|r| - 1]) == key(s[|s| - 1])
  {
    var n := |s| - 1;
    var x := s[n];
    assert |r| == |s| by {
      assert |multiset(r)| == |multiset(s)|;
    }
    assert x in multiset(r);
    var ix :| 0 <= ix < |r| && r[ix] == x;
    assert key(x) <= key(r[n]) by {
      if ix < n {
        assert InOrder(Ascending, key(r[ix]), key(r[n]));
      }
    }
    var last := r[n];
    assert last in multiset(s);
    var il :| 0 <= il < |s| && s[il] == last;
    assert key(last) <= key(x);
  }

  /**
   * A stable ascending sort ends with the input's last element when that
   * element carries the greatest key.
   */
  lemma SortedLastIsInputLast<T(!new)>(s: seq<T>, key: T -> int)
    requires |s| > 0
    requires forall i :: 0 <= i < |s| ==> key(s[i]) <= key(s[|s| - 1])
    ensures var r := SortBy(s, key, Ascending); |r| > 0 && r[|r| - 1] == s[|s| - 1]
  {
    var r := SortBy(s, key, Ascending);
    var k := key(s[|s| - 1]);
    SortedLastKey(s, r, key);
    SortByStable(s, key, Ascending, k);
    LastOfStable(s, r, key);
  }

  /** When `r` ends with the greatest key of `s` and lists that key's elements as `s` does, both end alike. */
  lemma LastOfStable<T(!new)>(s: seq<T>, r: seq<T>, key: T -> int)
    requires |s| > 0 && |r| > 0
    requires key(r[|r| - 1]) == key(s[|s| - 1])
    requires WithKey(r, key, key(s[|s| - 1])) == WithKey(s, key, key(s[|s| - 1]))
    ensures r[|r| - 1] == s[|s| - 1]
  {
    var k := key(s[|s| - 1]);
    var ws := WithKey(s, key, k);
    WithKeyLast(s, key);
    assert ws[|ws| - 1] == s[|s| - 1];
    WithKeyLast(r, key);
  }
}

=== FILE: users.dfy ===
/**
 * The user directory of the REST server (server/index.js, route 9): an
 * upsert of the profile a client reports after signing in, keyed by uid.
 */
module Users {
  import opened Records

  /** Body of `POST /api/users`. */
  datatype ProfileRequest = ProfileRequest(uid: string, email: string, displayName: string, photoURL: string, collegeDomain: string)

  /** `u` holds the profile fields of `req`. */
  predicate HoldsProfile(u: User, req: ProfileRequest) {
    && u.uid == req.uid
    && u.email == req.email
    && u.displayName == req.displayName
    && u.photoURL == req.photoURL
    && u.collegeDomain == req.collegeDomain
  }

  /**
   * `POST /api/users`: an empty uid is no document path, so the lookup
   * throws and the handler answers a server error without writing. A known
   * uid gets its profile fields overwritten and keeps its creation time; an
   * unknown uid gets a new record created `now`. The answer is the stored
   * record.
   */
  function SyncUser(db: Db, req: ProfileRequest, now: int): (r: Step<User>)
    requires Valid(db)
    ensures Valid(r.db)
    ensures req.uid == "" ==> r.db == db && r.response == ServerError
    ensures req.uid != "" ==>
              && r.db.listings == db.listings && r.db.conversations == db.conversations && r.db.messages == db.messages
              && r.db.nextId == db.nextId
              && r.db.users.Keys == db.users.Keys + {req.uid}
              && (forall uid :: uid in db.users && uid != req.uid ==> r.db.users[uid] == db.users[uid])
              && HoldsProfile(r.db.users[req.uid], req)
              && r.db.users[req.uid].createdAt == (if req.uid in db.users then db.users[req.uid].createdAt else now)
              && r.response == Ok(r.db.users[req.uid])
  {
    if req.uid == "" then Step(db, ServerError)
    else
      var stored :=
        if req.uid in db.users
        then db.users[req.uid].(email := req.email, displayName := req.displayName,
                                 photoURL := req.photoURL, collegeDomain := req.collegeDomain)
        else User(req.uid, req.email, req.displayName, req.photoURL, req.collegeDomain, now);
      var db' := db.(users := db.users[req.uid := stored]);
      Step(db', Ok(stored))
  }

  /**
   * Signing in again with the same profile changes nothing, whatever the
   * clock says: a user is created once and only updated afterwards.
   */
  lemma SyncUserIdempotent(db: Db, req: ProfileRequest, now1: int, now2: int)
    requires Valid(db)
    ensures var s1 := SyncUser(db, req, now1);
            SyncUser(s1.db, req, now2) == s1
  {
    var s1 := SyncUser(db, req, now1);
    var s2 := SyncUser(s1.db, req, now2);
    assert s2.db.users == s1.db.users;
  }
}
